=== FILE: README.md ===
# Web-log analyser, modelled in Dafny

This project models a small web-server log analyser. Each line of its log holds five integers: year, month, day, hour and minute. The model has four parts, one Dafny module each, plus two shared modules:

- `Tokenizer` models `LoglineTokenizer.tokenize`. A line is split into whitespace-separated tokens the way `java.util.Scanner` splits it. Each `nextInt` either yields a 32-bit integer or fails: with `NoSuchElement` when the tokens run out, and with `InputMismatch` on a token that is not an integer.
- `Entry` models `LogEntry`:
  - the two constructors and the getters;
  - `toString`, with its zero padding and `String.trim`;
  - `compareTo`, taken as the lexicographic order of (year, month, day, hour, minute).
- `Reader` models `LogfileReader` after its input has been read:
  - the load outcome: a missing log becomes 100 simulated entries, and a line that does not parse makes the constructor fail;
  - the sort;
  - the `reset` / `hasNext` / `next` cursor and the no-op `remove`.
- `Analyzer` models `LogAnalyzer`:
  - the 24-slot hourly histogram, which accumulates across calls;
  - `numberofAccesses`;
  - the first-occurrence busiest and quietest hour, two-hour window, day and month;
  - the per-month totals.
- `Stats` holds the counting, summing and scanning that the analyser's queries share.
- `Wrappers` holds `Option`, `Result` and the `int32` range of a Java `int`.

Java exceptions are `Result` and `Option` values:
- the `NoSuchElementException` of `next` is the `Exhausted` step;
- an `ArrayIndexOutOfBoundsException` is an `IndexOutOfBounds` fault;
- a scanner failure is a `ParseError` that carries the line and the position of the failing token.

Two inputs are parameters:
- The log file is a `LogSource`: either `Missing` or the lines it holds.
- The random numbers of `LogfileCreator.createEntry` are a sequence of `Draw`s. Each draw holds the four values `Random.nextInt` would return.

All queries take the analyser by value and return no new analyser, so none of them changes the entries. Only `AnalyzeHourlyData` returns a changed analyser.

The constructor's `catch` at `LogfileReader.java:61` names only `FileNotFoundException` and `URISyntaxException`. A line that does not parse raises a scanner exception, which is neither, so it leaves the constructor. `Reader.Open` therefore fails with the first bad line's error, and the reader falls back to simulated data only when the log is missing.

## Model

| member | source | states |
|---|---|---|
| Tokenizer.Tokens | LoglineTokenizer.java:33-36 | The tokens a `Scanner` reads from a line, in order. Each is a non-empty run of non-whitespace characters. Which runs they are, for every line, is stated by `TokensOfInterleave` and `LineIsInterleave`. |
| Tokenizer.TokensOfInterleave | LoglineTokenizer.java:33-37 | Tokens laid out with any whitespace runs before, between and after them, the inner runs non-empty, are split back into exactly those tokens, in order. |
| Tokenizer.LineIsInterleave | LoglineTokenizer.java:33-37 | Every line is its own tokens laid out with such whitespace runs. Together with `TokensOfInterleave` this fixes the tokens of every line. |
| Tokenizer.TokensOfJoinSpaces | LoglineTokenizer.java:33-36 | Tokens joined by single spaces are split back into exactly those tokens. |
| Tokenizer.ParseIntOfSignedDigits | LoglineTokenizer.java:36 | Every non-empty ASCII digit run, with no sign, `+` or `-` in front and leading zeros allowed, is read as the value it denotes exactly when that value is a 32-bit `int`, and is rejected otherwise. |
| Tokenizer.IntToDecimal | LogEntry.java:95 | `Integer.toString`, as `StringBuilder.append(int)` writes it: non-empty, starting with `-` exactly for negative values, followed by digits, with no leading zero except in `0` itself. |
| Tokenizer.ParseIntOfDecimal | LoglineTokenizer.java:36 | `nextInt` reads the decimal text of any 32-bit value back as that value. No range beyond `int` is checked. |
| Tokenizer.ParseIntOfZeroPrefixed | LoglineTokenizer.java:36 | A leading `0` before a non-negative decimal does not change the value `nextInt` reads. |
| Tokenizer.ParseIntOfZeroPrefixedNegative | LoglineTokenizer.java:36 | A `0` before a minus sign makes the token unreadable as an integer. |
| Tokenizer.ParseInt | LoglineTokenizer.java:36 | A token `nextInt` accepts is an optional sign followed by digits. Only a token with a leading `-` reads as a negative value. |
| Tokenizer.Fill | LoglineTokenizer.java:34-42 | The loop over `dataLine` from slot `i`. It succeeds exactly when each remaining slot's token exists and is an integer, and then each slot holds its token's value. On a failure at token `k`: slots before `k` are filled, later slots are unchanged, and the kind is `NoSuchElement` exactly when the tokens ran out. |
| Tokenizer.Tokenize | LoglineTokenizer.java:29-43 | The length of `dataLine` is kept. It succeeds exactly when the first `dataLine.length` tokens are all integers, and the values land in order. On a failure, the error names the first failing token, the slots before it are filled and the rest are unchanged. |
| Tokenizer.TokenizeIgnoresExtraTokens | LoglineTokenizer.java:33-37 | Two lines give the same result when their first `dataLine.length` tokens agree, or all of their tokens when they have fewer. The whitespace between tokens and any further tokens do not matter. |
| Entry.Make | LogEntry.java:47-58 | The field constructor keeps year, month, day, hour and minute exactly as given, out-of-range values included. `dataValues` is in the order year, month, day, hour, minute, and the getters give the fields back. |
| Entry.FromLine | LogEntry.java:18-36 | The string constructor succeeds exactly when the line's first five tokens are integers. The fields are then those integers in order, with no range check. Otherwise it fails with the tokenizer's error for the first bad token. |
| Entry.ToString | LogEntry.java:85-100 | The five padded fields in the order year, month, day, hour, minute, separated by single spaces. The text is non-empty and neither starts nor ends with a space. |
| Entry.TrimmedBuffer | LogEntry.java:87-99 | Trimming the `StringBuilder` built by the loop leaves the padded fields joined by single spaces. |
| Entry.BufferIsJoinPlusSpace | LogEntry.java:88-97 | The loop writes each padded field followed by one space. |
| Entry.RoundTrip | LogEntry.java:85-100 | For an entry with no negative field, parsing `toString` gives back the same entry. |
| Entry.NegativeFieldBreaksRoundTrip | LogEntry.java:91-95 | The text of an entry with a negative field does not parse back. It fails with an input mismatch at the first negative field, because that field is written as `0-…` (see `Pad`), and every earlier field reads back. |
| Entry.Pad | LogEntry.java:90-95 | A padded field is one token. A value in 0..9 is written as `0` and one digit. A negative value is written as `0-` followed by more text. A value of 10 or more is its plain decimal text. Within the `int` range the token reads back as an integer exactly when the value is non-negative, and then as the value itself. |
| Entry.Trim | LogEntry.java:99 | `String.trim` gives text no longer than its input, and any text left starts and ends with a character above a space. |
| Entry.TrimKeepsMiddle | LogEntry.java:99 | `String.trim` keeps a contiguous middle of its input and drops only characters at or below a space, from both ends. |
| Entry.Compare | LogEntry.java:109-113 | `compareTo` is -1, 0 or 1. It is 0 exactly for equal entries and negative exactly when the first entry's tuple is lexicographically below the other's. |
| Entry.CompareIsLexicographic | LogEntry.java:109-113 | `compareTo` is -1, 0 or 1. It is negative, zero or positive exactly as (year, month, day, hour, minute) is lexicographically below, equal to or above the other entry's tuple. |
| Entry.CompareIsTotalOrder | LogEntry.java:109-113 | The order is reflexive, antisymmetric, transitive and total, which `Collections.sort` needs. |
| Reader.Insert | LogfileReader.java:70 | Inserting into a sorted list keeps it sorted and adds exactly the one entry. |
| Reader.Sort | LogfileReader.java:70 | The result is in ascending `compareTo` order and is a permutation of the input. |
| Reader.SortedPermutationsAreEqual | LogfileReader.java:70 | Two sorted permutations of the same entries are equal. So any correct sort gives `Sort`'s result, the stable merge sort of `Collections.sort` included. |
| Reader.CreateEntry | LogfileCreator.java:67-76 | An entry created for year 2022 has month 1..12, day 1..28, hour 0..23 and minute 0..59. |
| Reader.SimulatedData | LogfileReader.java:137-144 | `numEntries` created entries, one per draw, in order. |
| Reader.SimulatedDataIsSimulated | LogfileReader.java:137-144 | Every simulated entry is dated 2022 with its fields within the creator's ranges. |
| Reader.ParseLines | LogfileReader.java:54-58 | Each line becomes an entry, in order. Otherwise the result is the error of the first line that does not parse, with every earlier line parsing. |
| Reader.ReadEntries | LogfileReader.java:48-69 | A missing log always succeeds with 100 entries, each dated 2022 with fields in the creator's ranges. Entry `i` is then created from draw `i`. A present log succeeds exactly when every line parses, and then entry `i` is what line `i` parses to. Otherwise it fails with the error of the first line that does not parse. |
| Reader.Open | LogfileReader.java:42-72 | The constructor fails exactly when the log is present and some line does not parse, and then with the first such line's error. On success the entries are sorted and the cursor is at the start. A missing log gives exactly 100 entries, all simulated, and no fallback ever happens for a bad line. |
| Reader.Reset | LogfileReader.java:115-118 | `reset` puts the cursor back at the first entry and keeps the entries. |
| Reader.HasNext | LogfileReader.java:79-82 | `hasNext` is true exactly when `next` would hand out an entry. |
| Reader.Next | LogfileReader.java:89-92 | `next` hands out the entry under the cursor and moves one step, or is exhausted exactly when the cursor is past the last entry. |
| Reader.Advance | LogfileReader.java:89-92 | `k` calls of `next` hand out at most `k` entries, each the stored entry at its position after the cursor. The cursor moves by the number handed out and the entries stay. If fewer than `k` came out, `hasNext` is false afterwards. |
| Reader.AdvanceFromReset | LogfileReader.java:79-118 | After `reset`, `k` calls of `next` hand out the first `k` entries in stored order. `hasNext` is then false exactly when all entries have been handed out. |
| Reader.AdvanceFrom | LogfileReader.java:79-92 | From any cursor, `k` calls of `next` hand out the next `k` entries and move the cursor by `k`. |
| Reader.Remove | LogfileReader.java:97-100 | `remove` changes neither the entries nor the cursor. |
| Reader.RemoveKeepsTraversal | LogfileReader.java:97-100 | A `remove` before any number of `next` calls changes nothing they hand out. |
| Stats.FirstExtremaAreUnique | LogAnalyzer.java:94-106 | There is only one lowest index of the maximum, and only one of the minimum. |
| Stats.ScanMax | LogAnalyzer.java:98-104 | The strict `>` scan. The result is at least the seed and every element is at most the result. When some element beats the seed, the index is the first index of the maximum; otherwise the seed index is kept. |
| Stats.ScanMin | LogAnalyzer.java:117-124 | The strict `<` scan, symmetric to `ScanMax`. |
| Stats.CountWithin | LogAnalyzer.java:156-164 | The counting loop of the day queries equals the histogram of the days in range. Days out of range are skipped. |
| Analyzer.LoadEntries | LogAnalyzer.java:42-48 | `loadEntries` collects exactly the entries from the cursor to the end, in order, and leaves `hasNext` false. |
| Analyzer.New | LogAnalyzer.java:31-37 | The analyser holds the reader's entries in sorted order with all 24 hourly counts zero. It fails exactly when the reader's constructor fails, with the same error. |
| Analyzer.AddHours | LogAnalyzer.java:55-59 | Slot `h` grows by the number of entries with hour `h` before the first hour outside 0..23. The result has a fault exactly when there is such an hour, and the fault carries that hour as its index. |
| Analyzer.AnalyzeHourlyData | LogAnalyzer.java:53-60 | Without a fault, each slot grows by the number of entries with that hour, added to what was there before. The fault happens exactly when some hour is outside 0..23; the entries before it have been counted. |
| Analyzer.AnalyzeHourlyDataTwiceDoubles | LogAnalyzer.java:53-60 | Two calls on a new analyser leave each slot at twice the count of its hour. So with any entry, the second call changes the state and the operation is not idempotent. |
| Analyzer.AccessesAfterOneAnalysis | LogAnalyzer.java:53-87 | After one call on a new analyser whose hours are in 0..23, the slots add up to the number of entries. |
| Analyzer.NumberOfAccesses | LogAnalyzer.java:79-87 | The total is the sum of the 24 slots. |
| Analyzer.BusiestHour | LogAnalyzer.java:94-106 | The result is in 0..23 and is the lowest hour with the highest count. It is 0 when all counts are zero. |
| Analyzer.QuietestHour | LogAnalyzer.java:113-126 | The result is in 0..23. When no count exceeds `Integer.MAX_VALUE`, it is the lowest hour with the lowest count. When no count is below that value, it is 0. |
| Analyzer.TwoHourBusiest | LogAnalyzer.java:133-147 | The result is in 0..22 and is the lowest start of a window with the highest count. It is 0 when every window is empty. |
| Analyzer.QuietestDay | LogAnalyzer.java:154-176 | The result is in 1..28: the lowest day with the lowest count among days 1..28. Other days are not counted. |
| Analyzer.BusiestDay | LogAnalyzer.java:183-204 | The result is 0 exactly when no entry has a day in 1..31. Otherwise it is the lowest day in 1..31 with the highest count. |
| Analyzer.TotalAccessesPerMonth | LogAnalyzer.java:211-220 | The result succeeds exactly when every month is in 1..12, giving twelve counts indexed by month − 1 that add up to the number of entries. Otherwise the index fault is at the first bad month. Its index is month − 1 computed in Java's `int`, so the lowest `int` month wraps around to `Integer.MAX_VALUE`. |
| Wrappers.Decrement | LogAnalyzer.java:217 | `month - 1` in Java's `int`: the exact difference for every value but the lowest, and always equal to it modulo 2^32. |
| Analyzer.QuietestMonth | LogAnalyzer.java:227-245 | When every month is in 1..12, the result is the lowest month in 1..12 with the lowest count. It fails exactly when some month is out of range. The failure is the same index fault as in `TotalAccessesPerMonth`. |
| Analyzer.BusiestMonth | LogAnalyzer.java:252-271 | When every month is in 1..12, the result is the lowest month in 1..12 with the highest count. It fails exactly when some month is out of range. The failure is the same index fault as in `TotalAccessesPerMonth`. |
| Analyzer.AverageAccessesPerMonth | LogAnalyzer.java:278-294 | Each month's average times five is that month's count, over exact rationals. It fails exactly when some month is out of range. The failure is the same index fault as in `TotalAccessesPerMonth`. |

## Left out

- File and resource I/O is not modelled: the class-loader lookup, `Scanner` over a `File`, `FileWriter` and `LogfileCreator.createFile`. The log is a parameter that is either missing or a sequence of lines.
- A `URISyntaxException` is folded into the missing case, because it is caught together with `FileNotFoundException` at `LogfileReader.java:61` and leads to the same fallback.
- The random numbers of `LogfileCreator.createEntry` are a parameter: a sequence of draws within the bounds of `Random.nextInt`.
- Console output is not modelled: `printHourlyCounts`, `printData` and the `System.out`/`System.err` diagnostics, including the message printed before the scanner's exception is rethrown.
- `getFormat` returns a constant string and is not modelled.
- Entry.CompareIsLexicographic: `java.util.Calendar` is not modelled. The source compares `Calendar` instants, so out-of-range fields wrap around leniently (month 13 of one year is January of the next). Also, the seconds and milliseconds left over from `Calendar.getInstance()` can make entries with equal fields compare unequal. Lenient normalisation also moves fields that are in range: in a time zone with daylight saving, a wall-clock time skipped on the spring-forward day (02:30, say) becomes the hour after (03:30), so it sorts after 03:15 of that day, while the tuple order puts it first. The tuple order agrees with `compareTo` only for fields within calendar ranges that name an existing local time, on entries built at the same instant.
- Entry.Compare: the tuple order stands in for `Calendar.compareTo`. It agrees with it only for fields within calendar ranges that name an existing local time, on entries built at the same instant (see the previous line).
- Tokenizer.ParseInt: locale details of `Scanner.nextInt` are not modelled: grouping separators, non-ASCII digits and locale-specific signs. A token is an optional `+` or `-` followed by ASCII digits, within the `int` range.
- Reader.Sort: the stability of `Collections.sort` is not observable in the model. Entries with equal fields are equal values, and `SortedPermutationsAreEqual` shows that any correct sort gives the same list.
- Analyzer.NumberOfAccesses: the hourly slots and their total are unbounded integers. An `ArrayList` cannot hold 2^31 entries, but repeated `analyzeHourlyData` calls keep adding to the same `int` slots, so in the source a slot or the total can wrap around past `Integer.MAX_VALUE`. That wrap-around is not modelled.
- Analyzer.TwoHourBusiest: the pair sum `hourCounts[index] + hourCounts[index + 1]` at `LogAnalyzer.java:139` is an unbounded integer. In the source it wraps around when two slots grown by repeated `analyzeHourlyData` calls add up past `Integer.MAX_VALUE`.
- Analyzer.AverageAccessesPerMonth: averages are exact rationals rather than `double` values, so the rounding of the floating-point division is not modelled.

=== FILE: analyzer.dfy ===
/**
  `LogAnalyzer`: the entries loaded once from a reader, a 24-slot hourly
  histogram that `analyzeHourlyData` adds to, and the statistics queries.

  The hourly queries read the histogram as it stands; the day and month
  queries count the entries afresh on every call. A Java array index outside
  its bounds (an hour outside 0..23, a month outside 1..12) is the `Fault`
  the operation ends with.
 */
module Analyzer {
  import opened Wrappers
  import opened Entry
  import opened Reader
  import opened Stats

  /** Slots of the hourly histogram, and the day ranges of the two day queries. */
  const HourSlots: nat := 24
  const BusiestDayRange: nat := 31
  const QuietestDayRange: nat := 28
  const MonthSlots: nat := 12

  /** The divisor `averageAccessesPerMonth` uses: the log is assumed to span five years. */
  const AssumedYears: real := 5.0

  /** The analyser's state: the hourly histogram and the loaded entries. */
  datatype LogAnalyzer = LogAnalyzer(hourCounts: seq<nat>, entries: seq<LogEntry>)

  /** The histogram has its 24 slots. */
  predicate Valid(a: LogAnalyzer) {
    |a.hourCounts| == HourSlots
  }

  /** `ArrayIndexOutOfBoundsException`: the index used and the array's length. */
  datatype Fault = IndexOutOfBounds(index: int, length: nat)

  /** The hour, day and month of every entry, in order. */
  function Hours(es: seq<LogEntry>): (r: seq<int>)
    ensures |r| == |es| && forall i :: 0 <= i < |es| ==> r[i] == es[i].hour
  {
    seq(|es|, i requires 0 <= i < |es| => es[i].hour as int)
  }

  function Days(es: seq<LogEntry>): (r: seq<int>)
    ensures |r| == |es| && forall i :: 0 <= i < |es| ==> r[i] == es[i].day
  {
    seq(|es|, i requires 0 <= i < |es| => es[i].day as int)
  }

  function Months(es: seq<LogEntry>): (r: seq<int>)
    ensures |r| == |es| && forall i :: 0 <= i < |es| ==> r[i] == es[i].month
  {
    seq(|es|, i requires 0 <= i < |es| => es[i].month as int)
  }

  // ---------------------------------------------------------------------
  // Construction
  // ---------------------------------------------------------------------

  /** A new analyser over `entries`: every hourly slot is zero. */
  function Fresh(entries: seq<LogEntry>): (a: LogAnalyzer)
    ensures Valid(a) && a.entries == entries
    ensures forall h :: 0 <= h < HourSlots ==> a.hourCounts[h] == 0
  {
    LogAnalyzer(seq(HourSlots, _ => 0), entries)
  }

  /** `loadEntries`: `next` while `hasNext`, appending each entry handed out. */
  method LoadEntries(reader: LogReader) returns (entries: seq<LogEntry>, after: LogReader)
    requires reader.cursor <= |reader.entries|
    ensures entries == reader.entries[reader.cursor..]
    ensures after.entries == reader.entries && !HasNext(after)
  {
    entries := [];
    after := reader;
    while HasNext(after)
      invariant after.entries == reader.entries
      invariant reader.cursor <= after.cursor <= |reader.entries|
      invariant entries == reader.entries[reader.cursor..after.cursor]
      decreases |after.entries| - after.cursor
    {
      var step := Next(after);
      entries := entries + [step.entry];
      after := step.reader;
    }
  }

  /** `new LogAnalyzer()`: a reader is opened on the log, its entries are loaded
      in sorted order, and the histogram starts at zero. A line that does not
      parse makes the constructor fail with that line's error. */
  method New(source: LogSource, draws: seq<Draw>) returns (r: Result<LogAnalyzer, ParseError>)
    requires |draws| >= SimulatedCount
    requires forall d <- draws :: ValidDraw(d)
    ensures r.Success? <==> Open(source, draws).Success?
    ensures r.Success? ==>
      && Valid(r.value)
      && r.value.entries == Open(source, draws).value.entries
      && Sorted(r.value.entries)
      && forall h :: 0 <= h < HourSlots ==> r.value.hourCounts[h] == 0
    ensures r.Failure? ==> r.error == Open(source, draws).error
  {
    match Open(source, draws)
    case Failure(e) =>
      r := Failure(e);
    case Success(reader) =>
      var entries, _ := LoadEntries(reader);
      r := Success(Fresh(entries));
  }

  // ---------------------------------------------------------------------
  // analyzeHourlyData and numberofAccesses
  // ---------------------------------------------------------------------

  /** The loop of `analyzeHourlyData` over `hours`: one more in slot `h` for each
      hour `h`, stopping at the first hour that is not a slot, whose index is
      the fault. Slots filled before the fault keep their new values. */
  function AddHours(counts: seq<nat>, hours: seq<int>): (r: (seq<nat>, Option<Fault>))
    requires |counts| == HourSlots
    ensures |r.0| == HourSlots
    ensures var p := FirstOutside(hours, 0, HourSlots);
      && (r.1.None? <==> p == |hours|)
      && (r.1.Some? ==> r.1.value == IndexOutOfBounds(hours[p], HourSlots))
      && forall h :: 0 <= h < HourSlots ==> r.0[h] == counts[h] + Occurrences(hours[..p], h)
    decreases |hours|
  {
    if |hours| == 0 then (counts, None)
    else if !(0 <= hours[0] < HourSlots) then
      assert hours[..0] == [];
      (counts, Some(IndexOutOfBounds(hours[0], HourSlots)))
    else
      var h0 := hours[0];
      var r := AddHours(counts[h0 := counts[h0] + 1], hours[1..]);
      AddHoursStep(hours);
      r
  }

  /** Processing the first hour, then the rest: the prefix counted from `hours[1..]`
      is the prefix counted from `hours` less its first element. */
  lemma AddHoursStep(hours: seq<int>)
    requires |hours| > 0 && 0 <= hours[0] < HourSlots
    ensures FirstOutside(hours, 0, HourSlots) == 1 + FirstOutside(hours[1..], 0, HourSlots)
    ensures forall h ::
      Occurrences(hours[..FirstOutside(hours, 0, HourSlots)], h)
        == (if hours[0] == h then 1 else 0) + Occurrences(hours[1..][..FirstOutside(hours[1..], 0, HourSlots)], h)
  {
    var p := FirstOutside(hours, 0, HourSlots);
    var q := FirstOutside(hours[1..], 0, HourSlots);
    assert hours[..p] == [hours[0]] + hours[1..][..q];
    forall h {
      OccurrencesCons(hours[0], hours[1..][..q], h);
    }
  }

  /** What `analyzeHourlyData` returns: the analyser afterwards, and the exception, if one ended it. */
  datatype Analysis = Analysis(analyzer: LogAnalyzer, fault: Option<Fault>)

  /** `analyzeHourlyData`: adds every entry's hour to the histogram, on top of
      what is already there (nothing is reset), and fails at the first entry
      whose hour is outside 0..23, having counted the entries before it. */
  function AnalyzeHourlyData(a: LogAnalyzer): (r: Analysis)
    requires Valid(a)
    ensures Valid(r.analyzer) && r.analyzer.entries == a.entries
    ensures r.fault.None? <==> AllWithin(Hours(a.entries), 0, HourSlots)
    ensures r.fault.None? ==>
      forall h :: 0 <= h < HourSlots ==>
        r.analyzer.hourCounts[h] == a.hourCounts[h] + Occurrences(Hours(a.entries), h)
    ensures r.fault.Some? ==>
      var p := FirstOutside(Hours(a.entries), 0, HourSlots);
      && p < |a.entries|
      && r.fault.value == IndexOutOfBounds(a.entries[p].hour, HourSlots)
      && forall h :: 0 <= h < HourSlots ==>
        r.analyzer.hourCounts[h] == a.hourCounts[h] + Occurrences(Hours(a.entries[..p]), h)
  {
    var hours := Hours(a.entries);
    var (counts, fault) := AddHours(a.hourCounts, hours);
    var p := FirstOutside(hours, 0, HourSlots);
    assert p == |hours| ==> hours[..p] == hours;
    assert Hours(a.entries[..p]) == hours[..p];
    assert p == |hours| <==> AllWithin(hours, 0, HourSlots);
    Analysis(LogAnalyzer(counts, a.entries), fault)
  }

  /** `analyzeHourlyData` is not idempotent: a second call on a new analyser
      counts every entry again, doubling every slot, and so changes the state
      whenever there is an entry. */
  lemma AnalyzeHourlyDataTwiceDoubles(entries: seq<LogEntry>)
    requires AllWithin(Hours(entries), 0, HourSlots)
    ensures var once := AnalyzeHourlyData(Fresh(entries));
      var twice := AnalyzeHourlyData(once.analyzer);
      && once.fault.None? && twice.fault.None?
      && (forall h :: 0 <= h < HourSlots ==>
            twice.analyzer.hourCounts[h] == 2 * Occurrences(Hours(entries), h))
      && (|entries| > 0 ==> twice.analyzer != once.analyzer)
  {
    var once := AnalyzeHourlyData(Fresh(entries));
    var twice := AnalyzeHourlyData(once.analyzer);
    if |entries| > 0 {
      var h := entries[0].hour as int;
      OccurrencesPositive(Hours(entries), h);
      assert Hours(entries)[0] == h;
      assert twice.analyzer.hourCounts[h] != once.analyzer.hourCounts[h];
    }
  }

  /** After one `analyzeHourlyData` on a new analyser whose entries all have
      hours in 0..23, the histogram accounts for every entry exactly once. */
  lemma AccessesAfterOneAnalysis(entries: seq<LogEntry>)
    requires AllWithin(Hours(entries), 0, HourSlots)
    ensures Sum(AnalyzeHourlyData(Fresh(entries)).analyzer.hourCounts) == |entries|
  {
    var counts := AnalyzeHourlyData(Fresh(entries)).analyzer.hourCounts;
    assert counts == Counts(Hours(entries), 0, HourSlots);
    SumOfCounts(Hours(entries), 0, HourSlots);
  }

  /** `numberofAccesses`: the sum of the 24 hourly slots. */
  method NumberOfAccesses(a: LogAnalyzer) returns (total: int)
    requires Valid(a)
    ensures total == Sum(a.hourCounts)
    ensures total >= 0
  {
    total := 0;
    var hour := 0;
    while hour < HourSlots
      invariant 0 <= hour <= HourSlots
      invariant total == Sum(a.hourCounts[..hour]) && total >= 0
    {
      assert a.hourCounts[..hour + 1][..hour] == a.hourCounts[..hour];
      total := total + a.hourCounts[hour];
      hour := hour + 1;
    }
    assert a.hourCounts[..hour] == a.hourCounts;
  }

  // ---------------------------------------------------------------------
  // Hourly extrema
  // ---------------------------------------------------------------------

  /** `busiestHour`: the lowest hour with the highest count (0 when every slot is zero). */
  method BusiestHour(a: LogAnalyzer) returns (hour: int)
    requires Valid(a)
    ensures 0 <= hour < HourSlots
    ensures IsFirstMax(a.hourCounts, hour)
    ensures (forall h :: 0 <= h < HourSlots ==> a.hourCounts[h] == 0) ==> hour == 0
  {
    var index, best := ScanMax(a.hourCounts, 0, 0, 0);
    hour := index;
  }

  /** `quietestHour`: the lowest hour with the lowest count, the scan starting
      from `Integer.MAX_VALUE`; when no slot is below that value the result is 0. */
  method QuietestHour(a: LogAnalyzer) returns (hour: int)
    requires Valid(a)
    ensures 0 <= hour < HourSlots
    ensures (forall h :: 0 <= h < HourSlots ==> a.hourCounts[h] <= MaxInt) ==> IsFirstMin(a.hourCounts, hour)
    ensures (forall h :: 0 <= h < HourSlots ==> a.hourCounts[h] >= MaxInt) ==> hour == 0
  {
    var index, best := ScanMin(a.hourCounts, 0, 0, MaxInt);
    hour := index;
  }

  /** The access count of each two-hour window `h, h + 1`, for `h` in 0..22. */
  function PairSums(counts: seq<nat>): (r: seq<int>)
    requires |counts| == HourSlots
    ensures |r| == HourSlots - 1
    ensures forall h :: 0 <= h < HourSlots - 1 ==> r[h] == counts[h] + counts[h + 1]
  {
    seq(HourSlots - 1, h requires 0 <= h < HourSlots - 1 => counts[h] + counts[h + 1])
  }

  /** `twoHourBusiest`: the lowest starting hour of a two-hour window with the
      highest count (0 when every window is empty). */
  method TwoHourBusiest(a: LogAnalyzer) returns (hour: int)
    requires Valid(a)
    ensures 0 <= hour < HourSlots - 1
    ensures IsFirstMax(PairSums(a.hourCounts), hour)
    ensures (forall h :: 0 <= h < HourSlots - 1 ==> PairSums(a.hourCounts)[h] == 0) ==> hour == 0
  {
    var index, best := ScanMax(PairSums(a.hourCounts), 0, 0, 0);
    hour := index;
  }

  // ---------------------------------------------------------------------
  // Day extrema
  // ---------------------------------------------------------------------

  /** `quietestDay`: counts the entries of each day 1..28 (other days are not
      counted) and returns the lowest day with the lowest count. */
  method QuietestDay(a: LogAnalyzer) returns (day: int)
    ensures 1 <= day <= QuietestDayRange
    ensures IsFirstMin(Counts(Days(a.entries), 1, QuietestDayRange), day - 1)
  {
    var dayCounts := CountWithin(Days(a.entries), 1, QuietestDayRange);
    var index, best := ScanMin(dayCounts, 1, 0, dayCounts[0]);
    day := index + 1;
  }

  /** `busiestDay`: counts the entries of each day 1..31 and returns the lowest
      day with the highest count, or 0, which is not a day, when no entry has a
      day in 1..31. */
  method BusiestDay(a: LogAnalyzer) returns (day: int)
    ensures 0 <= day <= BusiestDayRange
    ensures day == 0 <==> forall i :: 0 <= i < |a.entries| ==> !(1 <= a.entries[i].day <= BusiestDayRange)
    ensures day != 0 ==> IsFirstMax(Counts(Days(a.entries), 1, BusiestDayRange), day - 1)
  {
    var dayCounts := CountWithin(Days(a.entries), 1, BusiestDayRange);
    // busiestDay starts at 0, the day before index 0
    var index, best := ScanMax(dayCounts, 0, -1, 0);
    day := index + 1;
    CountsAllZero(Days(a.entries), 1, BusiestDayRange);
  }

  // ---------------------------------------------------------------------
  // Month statistics
  // ---------------------------------------------------------------------

  /** The fault every month statistic stops with: the first entry whose month is
      outside 1..12, indexed with `month - 1` computed in Java's `int`. */
  predicate IsMonthFault(a: LogAnalyzer, f: Fault) {
    var p := FirstOutside(Months(a.entries), 1, MonthSlots + 1);
    p < |a.entries| && f == IndexOutOfBounds(Decrement(a.entries[p].month), MonthSlots)
  }

  /** `totalAccessesPerMonth`: the number of entries of each month, January in
      slot 0. Every entry is counted, so the twelve counts add up to the number
      of entries; a month outside 1..12 is an index fault at the first such entry. */
  method TotalAccessesPerMonth(a: LogAnalyzer) returns (r: Result<seq<nat>, Fault>)
    ensures r.Success? <==> AllWithin(Months(a.entries), 1, MonthSlots + 1)
    ensures r.Success? ==>
      && r.value == Counts(Months(a.entries), 1, MonthSlots)
      && Sum(r.value) == |a.entries|
    ensures r.Failure? ==> IsMonthFault(a, r.error)
  {
    var months := Months(a.entries);
    var monthCounts: seq<nat> := seq(MonthSlots, _ => 0);
    var i := 0;
    while i < |months|
      invariant 0 <= i <= |months|
      invariant |monthCounts| == MonthSlots
      invariant AllWithin(months[..i], 1, MonthSlots + 1)
      invariant forall m :: 0 <= m < MonthSlots ==> monthCounts[m] == Occurrences(months[..i], 1 + m)
    {
      var month := months[i];
      if !(1 <= month <= MonthSlots) {
        assert FirstOutside(months, 1, MonthSlots + 1) == i;
        return Failure(IndexOutOfBounds(Decrement(a.entries[i].month), MonthSlots));
      }
      forall v | 1 <= v <= MonthSlots {
        OccurrencesOfPrefix(months, i, v);
      }
      monthCounts := monthCounts[month - 1 := monthCounts[month - 1] + 1];
      i := i + 1;
    }
    assert months[..i] == months;
    assert monthCounts == Counts(months, 1, MonthSlots);
    SumOfCounts(months, 1, MonthSlots);
    r := Success(monthCounts);
  }

  /** `quietestMonth`: the lowest month with the lowest count, the scan seeded
      with January's count. */
  method QuietestMonth(a: LogAnalyzer) returns (r: Result<int, Fault>)
    ensures r.Success? <==> AllWithin(Months(a.entries), 1, MonthSlots + 1)
    ensures r.Success? ==>
      1 <= r.value <= MonthSlots && IsFirstMin(Counts(Months(a.entries), 1, MonthSlots), r.value - 1)
    ensures r.Failure? ==> IsMonthFault(a, r.error)
  {
    var totals := TotalAccessesPerMonth(a);
    match totals
    case Failure(e) =>
      r := Failure(e);
    case Success(monthCounts) =>
      var index, best := ScanMin(monthCounts, 1, 0, monthCounts[0]);
      r := Success(index + 1);
  }

  /** `busiestMonth`: the lowest month with the highest count, the scan seeded
      with January's count. */
  method BusiestMonth(a: LogAnalyzer) returns (r: Result<int, Fault>)
    ensures r.Success? <==> AllWithin(Months(a.entries), 1, MonthSlots + 1)
    ensures r.Success? ==>
      1 <= r.value <= MonthSlots && IsFirstMax(Counts(Months(a.entries), 1, MonthSlots), r.value - 1)
    ensures r.Failure? ==> IsMonthFault(a, r.error)
  {
    var totals := TotalAccessesPerMonth(a);
    match totals
    case Failure(e) =>
      r := Failure(e);
    case Success(monthCounts) =>
      var index, best := ScanMax(monthCounts, 1, 0, monthCounts[0]);
      r := Success(index + 1);
  }

  /** `averageAccessesPerMonth`, over exact rationals: each month's count
      divided by the assumed five years. */
  method AverageAccessesPerMonth(a: LogAnalyzer) returns (r: Result<seq<real>, Fault>)
    ensures r.Success? <==> AllWithin(Months(a.entries), 1, MonthSlots + 1)
    ensures r.Success? ==>
      && |r.value| == MonthSlots
      && forall m :: 0 <= m < MonthSlots ==>
           r.value[m] * AssumedYears == Occurrences(Months(a.entries), m + 1) as real
    ensures r.Failure? ==> IsMonthFault(a, r.error)
  {
    var totals := TotalAccessesPerMonth(a);
    match totals
    case Failure(e) =>
      r := Failure(e);
    case Success(monthCounts) =>
      r := Success(seq(MonthSlots, m requires 0 <= m < MonthSlots => monthCounts[m] as real / AssumedYears));
  }
}

=== FILE: log_entry.dfy ===
/**
  One access-log record: the year, month, day, hour and minute of a request.

  Both constructors store the five values as given, with no range checks;
  the text form writes them back zero-padded, and entries are ordered by
  their time stamp, taken here as the lexicographic order of the five fields.
 */
module Entry {
  import opened Wrappers
  import opened Tokenizer

  /** The number of fields a log line carries. */
  const FieldCount: nat := 5

  /** An immutable log record. A datatype value cannot be written after it is
      built, as the source's `dataValues` array is never written after construction. */
  datatype LogEntry = LogEntry(year: int32, month: int32, day: int32, hour: int32, minute: int32)
  {
    /** The source's `dataValues` array: year, month, day, hour, minute. */
    function Values(): seq<int32> {
      [year, month, day, hour, minute]
    }
  }

  /** Every field is zero or more. */
  predicate NonNegative(e: LogEntry) {
    e.year >= 0 && e.month >= 0 && e.day >= 0 && e.hour >= 0 && e.minute >= 0
  }

  // ---------------------------------------------------------------------
  // Constructors
  // ---------------------------------------------------------------------

  /** `new LogEntry(year, month, day, hour, minute)`: the fields are kept exactly,
      out-of-range ones included, and the getters give them back. */
  function Make(year: int32, month: int32, day: int32, hour: int32, minute: int32): (e: LogEntry)
    ensures e.Values() == [year, month, day, hour, minute]
    ensures e.month == month && e.day == day && e.hour == hour && e.minute == minute
  {
    LogEntry(year, month, day, hour, minute)
  }

  /** The exception `new LogEntry(logline)` lets escape: the line and where the scan stopped. */
  datatype ParseError = ParseError(line: string, at: nat, kind: ScanError)

  /** `new LogEntry(logline)`: the first five tokens of the line, as integers,
      become year, month, day, hour and minute; further tokens are ignored. */
  function FromLine(line: string): (r: Result<LogEntry, ParseError>)
    ensures r.Success? <==> AllParse(Tokens(line), 0, FieldCount)
    ensures r.Success? ==>
      forall k :: 0 <= k < FieldCount ==>
        ParsesAt(Tokens(line), k) && r.value.Values()[k] == ParseInt(Tokens(line)[k]).value
    ensures r.Failure? ==>
      && r.error.line == line
      && r.error.at < FieldCount
      && (r.error.kind == NoSuchElement <==> r.error.at >= |Tokens(line)|)
      && AllParse(Tokens(line), 0, r.error.at)
      && !ParsesAt(Tokens(line), r.error.at)
  {
    var t := Tokenize(line, [0, 0, 0, 0, 0]);
    match t.fault
    case Some(f) => Failure(ParseError(line, f.at, f.kind))
    case None =>
      var d := t.data;
      Success(LogEntry(d[0], d[1], d[2], d[3], d[4]))
  }

  // ---------------------------------------------------------------------
  // Text form
  // ---------------------------------------------------------------------

  /** One field as `toString` writes it: a single `0` before any value below
      ten, negative values included. */
  function Pad(v: int): (s: string)
    ensures IsToken(s)
    ensures MinInt <= v <= MaxInt ==> (ParseInt(s).Some? <==> v >= 0)
    ensures 0 <= v <= MaxInt ==> ParseInt(s) == Some(v as int32)
    ensures 0 <= v < 10 ==> |s| == 2 && s[0] == '0' && IsDigit(s[1])
    ensures v < 0 ==> |s| > 2 && s[0] == '0' && s[1] == '-'
    ensures v >= 10 ==> s == IntToDecimal(v)
  {
    var s := if v < 10 then "0" + IntToDecimal(v) else IntToDecimal(v);
    if !(MinInt <= v <= MaxInt) then s
    else if v < 0 then ParseIntOfZeroPrefixedNegative(v); s
    else if v < 10 then ParseIntOfZeroPrefixed(v); s
    else ParseIntOfDecimal(v); s
  }

  /** The `StringBuilder` after the loop of `toString`: each field padded and followed by a space. */
  function Buffer(values: seq<int>): string {
    if |values| == 0 then "" else Pad(values[0]) + " " + Buffer(values[1..])
  }

  /** `String.trim`: drops leading and trailing characters at or below U+0020. */
  function Trim(s: string): (t: string)
    ensures |t| <= |s|
    ensures |t| > 0 ==> t[0] > ' ' && t[|t| - 1] > ' '
  {
    var u := TrimStart(s);
    TrimStartDrops(s);
    TrimEndDrops(u);
    var t := TrimEnd(u);
    assert |t| > 0 ==> t[0] == u[0];
    t
  }

  /** `String.trim` keeps a contiguous part of `s` and drops only characters at
      or below U+0020 on either side of it. */
  lemma TrimKeepsMiddle(s: string)
    ensures var t := Trim(s);
      var start := |s| - |TrimStart(s)|;
      && 0 <= start && start + |t| <= |s|
      && t == s[start..start + |t|]
      && (forall k :: 0 <= k < start ==> s[k] <= ' ')
      && (forall k :: start + |t| <= k < |s| ==> s[k] <= ' ')
  {
    var u := TrimStart(s);
    TrimStartDrops(s);
    TrimEndDrops(u);
    TrimBothEnds(s, u, TrimEnd(u));
  }

  /** Cutting the blanks off the front of `s`, giving `u`, and then off the
      back of `u`, giving `t`, cuts them off both ends of `s`. */
  lemma TrimBothEnds(s: string, u: string, t: string)
    requires |u| <= |s| && u == s[|s| - |u|..]
    requires |u| > 0 ==> u[0] > ' '
    requires forall k :: 0 <= k < |s| - |u| ==> s[k] <= ' '
    requires |t| <= |u| && t == u[..|t|]
    requires |t| > 0 ==> t[|t| - 1] > ' '
    requires forall k :: |t| <= k < |u| ==> u[k] <= ' '
    ensures var start := |s| - |u|;
      && start + |t| <= |s|
      && t == s[start..start + |t|]
      && (forall k :: start + |t| <= k < |s| ==> s[k] <= ' ')
    ensures |t| > 0 ==> t[0] > ' '
  {
    var start := |s| - |u|;
    assert u[..|t|] == s[start..start + |t|];
    forall k | start + |t| <= k < |s|
      ensures s[k] <= ' '
    {
      assert s[k] == u[k - start];
    }
    assert |t| > 0 ==> t[0] == u[0];
  }

  /** The characters at or below U+0020 that start `s` removed. */
  function TrimStart(s: string): string {
    if |s| > 0 && s[0] <= ' ' then TrimStart(s[1..]) else s
  }

  /** The characters at or below U+0020 that end `s` removed. */
  function TrimEnd(s: string): string {
    if |s| > 0 && s[|s| - 1] <= ' ' then TrimEnd(s[..|s| - 1]) else s
  }

  /** `TrimStart` drops exactly the blanks that start `s`: what is left is a
      suffix of `s` that starts with a non-blank, or nothing. */
  lemma {:induction false} TrimStartDrops(s: string)
    ensures var t := TrimStart(s);
      && |t| <= |s| && t == s[|s| - |t|..]
      && (|t| > 0 ==> t[0] > ' ')
      && forall k :: 0 <= k < |s| - |t| ==> s[k] <= ' '
    decreases |s|
  {
    if |s| > 0 && s[0] <= ' ' {
      TrimStartDrops(s[1..]);
      var t := TrimStart(s[1..]);
      assert s[1..][|s| - 1 - |t|..] == s[|s| - |t|..];
      forall k | 0 < k < |s| - |t|
        ensures s[k] <= ' '
      {
        assert s[k] == s[1..][k - 1];
      }
    }
  }

  /** `TrimEnd` drops exactly the blanks that end `s`: what is left is a
      prefix of `s` that ends with a non-blank, or nothing. */
  lemma {:induction false} TrimEndDrops(s: string)
    ensures var t := TrimEnd(s);
      && |t| <= |s| && t == s[..|t|]
      && (|t| > 0 ==> t[|t| - 1] > ' ')
      && forall k :: |t| <= k < |s| ==> s[k] <= ' '
    decreases |s|
  {
    if |s| > 0 && s[|s| - 1] <= ' ' {
      var init := s[..|s| - 1];
      TrimEndDrops(init);
      var t := TrimEnd(init);
      assert init[..|t|] == s[..|t|];
      forall k | |t| <= k < |s| - 1
        ensures s[k] <= ' '
      {
        assert s[k] == init[k];
      }
    }
  }

  /** `LogEntry.toString`: the five padded fields in the order year, month, day,
      hour, minute, separated by exactly one space, with nothing before or after. */
  function ToString(e: LogEntry): (s: string)
    ensures s == JoinSpaces([Pad(e.year), Pad(e.month), Pad(e.day), Pad(e.hour), Pad(e.minute)])
    ensures |s| > 0 && s[0] != ' ' && s[|s| - 1] != ' '
  {
    TrimmedBuffer(e);
    Trim(Buffer(e.Values()))
  }

  /** The trimmed buffer is the padded fields joined by single spaces. */
  lemma TrimmedBuffer(e: LogEntry)
    ensures var j := JoinSpaces([Pad(e.year), Pad(e.month), Pad(e.day), Pad(e.hour), Pad(e.minute)]);
      Trim(Buffer(e.Values())) == j && |j| > 0 && j[0] != ' ' && j[|j| - 1] != ' '
  {
    var j := JoinSpaces([Pad(e.year), Pad(e.month), Pad(e.day), Pad(e.hour), Pad(e.minute)]);
    BufferOfEntry(e);
    JoinOfEntryEnds(e);
    TrimOfTrailingSpace(j);
  }

  lemma BufferOfEntry(e: LogEntry)
    ensures Buffer(e.Values()) == JoinSpaces([Pad(e.year), Pad(e.month), Pad(e.day), Pad(e.hour), Pad(e.minute)]) + " "
  {
    var vs := e.Values();
    var p := Pads(vs);
    PadsAreTokens(vs);
    BufferIsJoinPlusSpace(vs);
    ListOfFive(p);
    assert p[0] == Pad(e.year) && p[1] == Pad(e.month) && p[2] == Pad(e.day);
    assert p[3] == Pad(e.hour) && p[4] == Pad(e.minute);
  }

  lemma ListOfFive(xs: seq<string>)
    requires |xs| == FieldCount
    ensures xs == [xs[0], xs[1], xs[2], xs[3], xs[4]]
  {
  }

  lemma JoinOfEntryEnds(e: LogEntry)
    ensures var j := JoinSpaces([Pad(e.year), Pad(e.month), Pad(e.day), Pad(e.hour), Pad(e.minute)]);
      |j| > 0 && j[0] > ' ' && j[|j| - 1] > ' '
  {
    PadIsToken(e.year);
    PadIsToken(e.minute);
    JoinOfFiveEnds(Pad(e.year), Pad(e.month), Pad(e.day), Pad(e.hour), Pad(e.minute));
  }

  lemma JoinOfFiveEnds(a: string, b: string, c: string, d: string, f: string)
    requires IsToken(a) && IsToken(b) && IsToken(c) && IsToken(d) && IsToken(f)
    requires a[0] > ' ' && f[|f| - 1] > ' '
    ensures var j := JoinSpaces([a, b, c, d, f]); |j| > 0 && j[0] > ' ' && j[|j| - 1] > ' '
  {
    JoinSpacesEnds([a, b, c, d, f]);
  }

  function Pads(values: seq<int>): seq<string> {
    if |values| == 0 then [] else [Pad(values[0])] + Pads(values[1..])
  }

  /** A padded field is a token whose first character is a digit and whose last is a digit. */
  lemma PadIsToken(v: int)
    ensures IsToken(Pad(v))
    ensures IsDigit(Pad(v)[0]) || Pad(v)[0] == '-'
    ensures IsDigit(Pad(v)[|Pad(v)| - 1])
  {
    var m: int := if v < 0 then -v else v;
    var d := NatToDecimal(m);
    assert IsDigit(d[|d| - 1]);
  }

  lemma {:induction false} PadsAreTokens(values: seq<int>)
    ensures |Pads(values)| == |values|
    ensures forall i :: 0 <= i < |values| ==> Pads(values)[i] == Pad(values[i])
    ensures forall i :: 0 <= i < |values| ==> IsToken(Pads(values)[i])
  {
    if |values| > 0 {
      PadIsToken(values[0]);
      PadsAreTokens(values[1..]);
    }
  }

  lemma {:induction false} BufferIsJoinPlusSpace(values: seq<int>)
    requires |values| > 0
    ensures Buffer(values) == JoinSpaces(Pads(values)) + " "
  {
    if |values| > 1 {
      BufferIsJoinPlusSpace(values[1..]);
      assert Pads(values)[1..] == Pads(values[1..]);
    }
  }

  /** Trimming the buffer removes exactly the final space. */
  lemma TrimOfTrailingSpace(j: string)
    requires |j| > 0 && j[0] > ' ' && j[|j| - 1] > ' '
    ensures Trim(j + " ") == j
  {
    var s := j + " ";
    assert TrimStart(s) == s;
    assert s[..|s| - 1] == j;
    assert TrimEnd(s) == TrimEnd(j) == j;
  }

  /** Joined tokens begin with the first token's first character and end with the last token's last. */
  lemma {:induction false} JoinSpacesEnds(ts: seq<string>)
    requires |ts| > 0
    requires forall i :: 0 <= i < |ts| ==> IsToken(ts[i])
    ensures IsToken(ts[0]) && IsToken(ts[|ts| - 1])
    ensures var j := JoinSpaces(ts); |j| > 0 && j[0] == ts[0][0] && j[|j| - 1] == ts[|ts| - 1][|ts[|ts| - 1]| - 1]
  {
    if |ts| > 1 {
      JoinSpacesEnds(ts[1..]);
    }
  }

  /** The text form of an entry with no negative field reads back as the same entry. */
  lemma RoundTrip(e: LogEntry)
    requires NonNegative(e)
    ensures FromLine(ToString(e)) == Success(e)
  {
    PadsParse(e);
    var r := FromLine(ToString(e));
    assert r.Success?;
    assert r.value.Values() == e.Values();
  }

  /** Every padded field of an entry with no negative field reads back as that field. */
  lemma PadsParse(e: LogEntry)
    requires NonNegative(e)
    ensures |Tokens(ToString(e))| == FieldCount && AllParse(Tokens(ToString(e)), 0, FieldCount)
    ensures forall k :: 0 <= k < FieldCount ==> ParseInt(Tokens(ToString(e))[k]) == Some(e.Values()[k])
  {
    PadsTokenized(e);
    PadsReadBack(e);
    FiveReadBack(Pad(e.year), Pad(e.month), Pad(e.day), Pad(e.hour), Pad(e.minute), e.Values());
  }

  /** Each of the five padded fields of an entry with no negative field reads back as the field. */
  lemma PadsReadBack(e: LogEntry)
    requires NonNegative(e)
    ensures ParseInt(Pad(e.year)) == Some(e.year) && ParseInt(Pad(e.month)) == Some(e.month)
    ensures ParseInt(Pad(e.day)) == Some(e.day) && ParseInt(Pad(e.hour)) == Some(e.hour)
    ensures ParseInt(Pad(e.minute)) == Some(e.minute)
  {
    PadReadsBack(e.year);
    PadReadsBack(e.month);
    PadReadsBack(e.day);
    PadReadsBack(e.hour);
    PadReadsBack(e.minute);
  }

  lemma PadReadsBack(v: int32)
    requires v >= 0
    ensures ParseInt(Pad(v)) == Some(v)
  {
  }

  lemma FiveReadBack(a: string, b: string, c: string, d: string, f: string, vs: seq<int32>)
    requires |vs| == FieldCount
    requires ParseInt(a) == Some(vs[0]) && ParseInt(b) == Some(vs[1]) && ParseInt(c) == Some(vs[2])
    requires ParseInt(d) == Some(vs[3]) && ParseInt(f) == Some(vs[4])
    ensures forall k :: 0 <= k < FieldCount ==> ParseInt([a, b, c, d, f][k]) == Some(vs[k])
  {
  }

  /** A negative field is written as `0-…`, which does not read back: the text form
      of an entry with a negative field is rejected, as an input mismatch at the
      first negative field. */
  lemma NegativeFieldBreaksRoundTrip(e: LogEntry)
    requires !NonNegative(e)
    ensures var r := FromLine(ToString(e));
      && r.Failure?
      && r.error.kind == InputMismatch
      && r.error.at < FieldCount && e.Values()[r.error.at] < 0
      && forall k :: 0 <= k < r.error.at ==> e.Values()[k] >= 0
  {
    PadsTokenized(e);
    PadParses(e.year);
    PadParses(e.month);
    PadParses(e.day);
    PadParses(e.hour);
    PadParses(e.minute);
    FiveParse(Pad(e.year), Pad(e.month), Pad(e.day), Pad(e.hour), Pad(e.minute), e.Values());
    var k := if e.year < 0 then 0 else if e.month < 0 then 1 else if e.day < 0 then 2
      else if e.hour < 0 then 3 else 4;
    FailsAtFirstNegative(ToString(e), e.Values(), k);
  }

  /** A line whose five tokens read exactly where the values are non-negative, with
      some value negative, is rejected as a mismatch at the first negative value. */
  lemma FailsAtFirstNegative(line: string, vs: seq<int32>, neg: nat)
    requires |vs| == FieldCount && |Tokens(line)| == FieldCount
    requires forall k :: 0 <= k < FieldCount ==> (ParsesAt(Tokens(line), k) <==> vs[k] >= 0)
    requires neg < FieldCount && vs[neg] < 0
    ensures var r := FromLine(line);
      && r.Failure?
      && r.error.kind == InputMismatch
      && r.error.at < FieldCount && vs[r.error.at] < 0
      && forall k :: 0 <= k < r.error.at ==> vs[k] >= 0
  {
    assert !ParsesAt(Tokens(line), neg);
  }

  lemma PadParses(v: int32)
    ensures ParseInt(Pad(v)).Some? <==> v >= 0
  {
  }

  /** Five tokens, each of which reads exactly when its value is non-negative. */
  lemma FiveParse(a: string, b: string, c: string, d: string, f: string, vs: seq<int32>)
    requires |vs| == FieldCount
    requires (ParseInt(a).Some? <==> vs[0] >= 0) && (ParseInt(b).Some? <==> vs[1] >= 0)
    requires (ParseInt(c).Some? <==> vs[2] >= 0) && (ParseInt(d).Some? <==> vs[3] >= 0)
    requires ParseInt(f).Some? <==> vs[4] >= 0
    ensures forall k :: 0 <= k < FieldCount ==> (ParsesAt([a, b, c, d, f], k) <==> vs[k] >= 0)
  {
  }

  lemma PadsTokenized(e: LogEntry)
    ensures Tokens(ToString(e)) == [Pad(e.year), Pad(e.month), Pad(e.day), Pad(e.hour), Pad(e.minute)]
  {
    TokensOfFive(Pad(e.year), Pad(e.month), Pad(e.day), Pad(e.hour), Pad(e.minute));
  }

  lemma TokensOfFive(a: string, b: string, c: string, d: string, f: string)
    requires IsToken(a) && IsToken(b) && IsToken(c) && IsToken(d) && IsToken(f)
    ensures Tokens(JoinSpaces([a, b, c, d, f])) == [a, b, c, d, f]
  {
    TokensOfJoinSpaces([a, b, c, d, f]);
  }

  // ---------------------------------------------------------------------
  // Ordering
  // ---------------------------------------------------------------------

  /** -1, 0 or 1 as `x` is below, equal to or above `y`. */
  function CompareInts(x: int, y: int): int {
    if x < y then -1 else if x == y then 0 else 1
  }

  /** `LogEntry.compareTo`: the time stamps compared field by field, most significant first. */
  function Compare(a: LogEntry, b: LogEntry): (r: int)
    ensures r in {-1, 0, 1}
    ensures r == 0 <==> a == b
    ensures r < 0 <==> LexLess(a.Values(), b.Values())
  {
    LexLessOfFields(a, b);
    if a.year != b.year then CompareInts(a.year, b.year)
    else if a.month != b.month then CompareInts(a.month, b.month)
    else if a.day != b.day then CompareInts(a.day, b.day)
    else if a.hour != b.hour then CompareInts(a.hour, b.hour)
    else CompareInts(a.minute, b.minute)
  }

  /** `a` sorts no later than `b`. */
  predicate Leq(a: LogEntry, b: LogEntry) {
    Compare(a, b) <= 0
  }

  /** Strict lexicographic order on equally long integer sequences. */
  predicate LexLess(a: seq<int>, b: seq<int>)
    requires |a| == |b|
  {
    |a| > 0 && (a[0] < b[0] || (a[0] == b[0] && LexLess(a[1..], b[1..])))
  }

  /** `compareTo` is negative, zero or positive exactly as the field tuples are
      lexicographically below, equal to or above each other. */
  lemma CompareIsLexicographic(a: LogEntry, b: LogEntry)
    ensures Compare(a, b) in {-1, 0, 1}
    ensures Compare(a, b) < 0 <==> LexLess(a.Values(), b.Values())
    ensures Compare(a, b) == 0 <==> a == b
    ensures Compare(a, b) > 0 <==> LexLess(b.Values(), a.Values())
  {
    LexLessOfFields(a, b);
    LexLessOfFields(b, a);
  }

  lemma LexLessOfFields(a: LogEntry, b: LogEntry)
    ensures LexLess(a.Values(), b.Values()) <==>
      || a.year < b.year
      || (a.year == b.year && a.month < b.month)
      || (a.year == b.year && a.month == b.month && a.day < b.day)
      || (a.year == b.year && a.month == b.month && a.day == b.day && a.hour < b.hour)
      || (a.year == b.year && a.month == b.month && a.day == b.day && a.hour == b.hour && a.minute < b.minute)
  {
    var u4: seq<int>, w4: seq<int> := [a.minute], [b.minute];
    var u3: seq<int>, w3: seq<int> := [a.hour] + u4, [b.hour] + w4;
    var u2: seq<int>, w2: seq<int> := [a.day] + u3, [b.day] + w3;
    var u1: seq<int>, w1: seq<int> := [a.month] + u2, [b.month] + w2;
    assert u4[1..] == [] && w4[1..] == [];
    assert LexLess(u4, w4) <==> a.minute < b.minute;
    assert u3[1..] == u4 && w3[1..] == w4;
    assert u2[1..] == u3 && w2[1..] == w3;
    assert u1[1..] == u2 && w1[1..] == w2;
    assert a.Values()[1..] == u1 && b.Values()[1..] == w1;
    assert LexLess(u3, w3) <==> a.hour < b.hour || (a.hour == b.hour && LexLess(u4, w4));
    assert LexLess(u2, w2) <==> a.day < b.day || (a.day == b.day && LexLess(u3, w3));
    assert LexLess(u1, w1) <==> a.month < b.month || (a.month == b.month && LexLess(u2, w2));
    assert LexLess(a.Values(), b.Values()) <==> a.year < b.year || (a.year == b.year && LexLess(u1, w1));
  }

  /** `compareTo` is a total order: reflexive, antisymmetric, transitive and total,
      with `Compare(a, b)` the negation of `Compare(b, a)`. */
  lemma CompareIsTotalOrder(a: LogEntry, b: LogEntry, c: LogEntry)
    ensures Leq(a, a)
    ensures Compare(a, b) == -Compare(b, a)
    ensures Leq(a, b) && Leq(b, a) ==> a == b
    ensures Leq(a, b) && Leq(b, c) ==> Leq(a, c)
    ensures Leq(a, b) || Leq(b, a)
  {
  }
}

=== FILE: reader.dfy ===
/**
  The entry store of `LogfileReader`: loading the entries (from the log's
  lines, or simulated ones when the log is missing), sorting them, and the
  resettable forward cursor over the sorted entries.
 */
module Reader {
  import opened Wrappers
  import opened Tokenizer
  import opened Entry

  // ---------------------------------------------------------------------
  // Sorting (`Collections.sort` under `compareTo`)
  // ---------------------------------------------------------------------

  /** Every entry sorts no later than every entry after it. */
  predicate Sorted(s: seq<LogEntry>) {
    forall i, j :: 0 <= i < j < |s| ==> Leq(s[i], s[j])
  }

  /** `x` placed in the sorted `s` just before the first entry it sorts no later than. */
  function Insert(x: LogEntry, s: seq<LogEntry>): (r: seq<LogEntry>)
    requires Sorted(s)
    ensures Sorted(r)
    ensures multiset(r) == multiset(s) + multiset{x}
    ensures |r| == |s| + 1
    ensures r[0] == x || (|s| > 0 && r[0] == s[0])
  {
    if |s| == 0 then [x]
    else if Leq(x, s[0]) then
      ConsSorted(x, s);
      [x] + s
    else
      MultisetOfTail(s);
      var rest := Insert(x, s[1..]);
      CompareIsTotalOrder(x, s[0], x);
      assert |s| > 1 ==> Leq(s[0], s[1]);
      ConsSorted(s[0], rest);
      assert s == [s[0]] + s[1..];
      [s[0]] + rest
  }

  /** An entry that sorts no later than the head of a sorted sequence can go in front of it. */
  lemma ConsSorted(y: LogEntry, s: seq<LogEntry>)
    requires Sorted(s)
    requires |s| > 0 ==> Leq(y, s[0])
    ensures Sorted([y] + s)
  {
    forall j | 0 <= j < |s|
      ensures Leq(y, s[j])
    {
      CompareIsTotalOrder(y, s[0], s[j]);
    }
  }

  /** Insertion sort: the entries in ascending `compareTo` order, none lost or added. */
  function Sort(s: seq<LogEntry>): (r: seq<LogEntry>)
    ensures Sorted(r)
    ensures multiset(r) == multiset(s)
  {
    if |s| == 0 then []
    else
      assert s == [s[0]] + s[1..];
      Insert(s[0], Sort(s[1..]))
  }

  /** Two sorted arrangements of the same entries are equal, so any correct
      sort, the stable merge sort of `Collections.sort` included, gives `Sort`'s result. */
  lemma {:induction false} SortedPermutationsAreEqual(a: seq<LogEntry>, b: seq<LogEntry>)
    requires Sorted(a) && Sorted(b)
    requires multiset(a) == multiset(b)
    ensures a == b
    decreases |a|
  {
    assert |b| == |a| by { assert |multiset(a)| == |a| && |multiset(b)| == |b|; }
    if |a| > 0 {
      SortedHeadIsLeast(a, b[0]);
      SortedHeadIsLeast(b, a[0]);
      CompareIsTotalOrder(a[0], b[0], a[0]);
      MultisetOfTail(a);
      MultisetOfTail(b);
      SortedPermutationsAreEqual(a[1..], b[1..]);
      assert a == [a[0]] + a[1..] && b == [b[0]] + b[1..];
    }
  }

  /** The first entry of a sorted sequence sorts no later than any of its entries. */
  lemma SortedHeadIsLeast(a: seq<LogEntry>, x: LogEntry)
    requires Sorted(a) && x in multiset(a)
    ensures |a| > 0 && Leq(a[0], x)
  {
    var i :| 0 <= i < |a| && a[i] == x;
    CompareIsTotalOrder(x, x, x);
  }

  lemma MultisetOfTail(a: seq<LogEntry>)
    requires |a| > 0
    ensures multiset(a[1..]) == multiset(a) - multiset{a[0]}
    ensures Sorted(a) ==> Sorted(a[1..])
  {
    assert a == [a[0]] + a[1..];
  }

  // ---------------------------------------------------------------------
  // Loading
  // ---------------------------------------------------------------------

  /** Where the log comes from: the named resource is absent (or its location
      cannot be turned into a file), or it is there as a sequence of lines. */
  datatype LogSource = Missing | Lines(lines: seq<string>)

  /** The values `LogfileCreator.createEntry` draws from its `Random`:
      `nextInt(12)`, `nextInt(28)`, `nextInt(24)` and `nextInt(60)`. */
  datatype Draw = Draw(month: int, day: int, hour: int, minute: int)

  predicate ValidDraw(d: Draw) {
    0 <= d.month < 12 && 0 <= d.day < 28 && 0 <= d.hour < 24 && 0 <= d.minute < 60
  }

  /** The year and the number of entries the reader simulates when the log is missing. */
  const SimulatedYear: int32 := 2022
  const SimulatedCount: nat := 100

  /** An entry as the fallback produces one: year 2022, months 1..12, days 1..28,
      hours 0..23, minutes 0..59. */
  predicate IsSimulated(e: LogEntry) {
    && e.year == SimulatedYear
    && 1 <= e.month <= 12 && 1 <= e.day <= 28 && 0 <= e.hour < 24 && 0 <= e.minute < 60
  }

  /** `LogfileCreator.createEntry(year)` for the given random draw. */
  function CreateEntry(year: int32, d: Draw): (e: LogEntry)
    requires ValidDraw(d)
    ensures year == SimulatedYear ==> IsSimulated(e)
  {
    Make(year, 1 + d.month, 1 + d.day, d.hour, d.minute)
  }

  /** `createSimulatedData(entries, n)`: one created entry per draw, for the first `n` draws. */
  function SimulatedData(draws: seq<Draw>, n: nat): (r: seq<LogEntry>)
    requires n <= |draws|
    requires forall d <- draws :: ValidDraw(d)
    ensures |r| == n
    ensures forall i :: 0 <= i < n ==> r[i] == CreateEntry(SimulatedYear, draws[i])
  {
    if n == 0 then [] else SimulatedData(draws, n - 1) + [CreateEntry(SimulatedYear, draws[n - 1])]
  }

  /** `f` applied to each element in order, stopping at the first failure, as a
      loop whose body may throw does. */
  function MapUntilFailure<A, B(==), E(==)>(xs: seq<A>, f: A -> Result<B, E>): (r: Result<seq<B>, E>)
    ensures r.Success? <==> forall i :: 0 <= i < |xs| ==> f(xs[i]).Success?
    ensures r.Success? ==>
      |r.value| == |xs| && forall i :: 0 <= i < |xs| ==> f(xs[i]) == Success(r.value[i])
    ensures r.Failure? ==>
      exists k :: 0 <= k < |xs| && f(xs[k]) == Failure(r.error) && forall i :: 0 <= i < k ==> f(xs[i]).Success?
  {
    if |xs| == 0 then Success([])
    else match f(xs[0])
      case Failure(e) => Failure(e)
      case Success(first) =>
        var tail := MapUntilFailure(xs[1..], f);
        assert forall i :: 0 < i < |xs| ==> xs[i] == xs[1..][i - 1];
        match tail
        case Failure(e) =>
          ghost var k :| 0 <= k < |xs| - 1 && f(xs[1..][k]) == Failure(e) && forall i :: 0 <= i < k ==> f(xs[1..][i]).Success?;
          assert f(xs[k + 1]) == Failure(e);
          Failure(e)
        case Success(rest) => Success([first] + rest)
  }

  /** Line `k` is the first of `lines` that does not parse, and it fails with `e`. */
  predicate FirstFailure(lines: seq<string>, k: nat, e: ParseError) {
    && k < |lines|
    && FromLine(lines[k]) == Failure(e)
    && forall i :: 0 <= i < k ==> FromLine(lines[i]).Success?
  }

  /** The loop over the log's lines: each line becomes an entry in order, and the
      first line that does not parse aborts the loop with its error. */
  function ParseLines(lines: seq<string>): (r: Result<seq<LogEntry>, ParseError>)
    ensures r.Success? <==> forall i :: 0 <= i < |lines| ==> FromLine(lines[i]).Success?
    ensures r.Success? ==>
      |r.value| == |lines| && forall i :: 0 <= i < |lines| ==> FromLine(lines[i]) == Success(r.value[i])
    ensures r.Failure? ==> exists k :: FirstFailure(lines, k, r.error)
  {
    var r := MapUntilFailure(lines, FromLine);
    if r.Failure? then FirstFailureExists(lines, r.error); r else r
  }

  lemma FirstFailureExists(lines: seq<string>, e: ParseError)
    requires exists k :: 0 <= k < |lines| && FromLine(lines[k]) == Failure(e) && forall i :: 0 <= i < k ==> FromLine(lines[i]).Success?
    ensures exists k :: FirstFailure(lines, k, e)
  {
    var k :| 0 <= k < |lines| && FromLine(lines[k]) == Failure(e) && forall i :: 0 <= i < k ==> FromLine(lines[i]).Success?;
    assert FirstFailure(lines, k, e);
  }

  /** The `try`/`catch` of the constructor: a missing log is replaced by 100
      simulated entries; a line that does not parse is not among the caught
      exceptions, so its error leaves the constructor and nothing is simulated. */
  function ReadEntries(source: LogSource, draws: seq<Draw>): (r: Result<seq<LogEntry>, ParseError>)
    requires |draws| >= SimulatedCount
    requires forall d <- draws :: ValidDraw(d)
    ensures source.Missing? ==>
      && r.Success? && |r.value| == SimulatedCount
      && (forall i :: 0 <= i < SimulatedCount ==> r.value[i] == CreateEntry(SimulatedYear, draws[i]))
      && forall e <- r.value :: IsSimulated(e)
    ensures source.Lines? ==>
      && (r.Success? <==> forall i :: 0 <= i < |source.lines| ==> FromLine(source.lines[i]).Success?)
      && (r.Success? ==> |r.value| == |source.lines|)
      && (r.Success? ==> forall i :: 0 <= i < |source.lines| ==> FromLine(source.lines[i]) == Success(r.value[i]))
      && (r.Failure? ==> exists k :: FirstFailure(source.lines, k, r.error))
  {
    match source
    case Missing =>
      SimulatedDataIsSimulated(draws, SimulatedCount);
      Success(SimulatedData(draws, SimulatedCount))
    case Lines(lines) => ParseLines(lines)
  }

  // ---------------------------------------------------------------------
  // The reader and its cursor
  // ---------------------------------------------------------------------

  /** The sorted entries and the position of the iterator over them. */
  datatype LogReader = LogReader(entries: seq<LogEntry>, cursor: nat)

  /** `new LogfileReader(filename)`: the loaded entries, sorted, with the cursor reset. */
  function Open(source: LogSource, draws: seq<Draw>): (r: Result<LogReader, ParseError>)
    requires |draws| >= SimulatedCount
    requires forall d <- draws :: ValidDraw(d)
    ensures r.Failure? <==> source.Lines? && exists i :: 0 <= i < |source.lines| && FromLine(source.lines[i]).Failure?
    ensures r.Failure? ==> exists k :: FirstFailure(source.lines, k, r.error)
    ensures r.Success? ==> r.value.cursor == 0 && Sorted(r.value.entries)
    ensures source.Missing? ==>
      && r.Success?
      && |r.value.entries| == SimulatedCount
      && multiset(r.value.entries) == multiset(SimulatedData(draws, SimulatedCount))
      && forall i :: 0 <= i < |r.value.entries| ==> IsSimulated(r.value.entries[i])
    ensures source.Lines? && r.Success? ==>
      && |r.value.entries| == |source.lines|
      && multiset(r.value.entries) == multiset(ParseLines(source.lines).value)
  {
    match ReadEntries(source, draws)
    case Failure(e) => Failure(e)
    case Success(entries) =>
      SortKeepsElements(entries);
      if source.Missing? then SimulatedDataIsSimulated(draws, SimulatedCount); Success(LogReader(Sort(entries), 0))
      else Success(LogReader(Sort(entries), 0))
  }

  /** Sorting keeps the length, and every element of the result comes from the input. */
  lemma SortKeepsElements(s: seq<LogEntry>)
    ensures |Sort(s)| == |s|
    ensures forall i :: 0 <= i < |s| ==> Sort(s)[i] in s
  {
    var r := Sort(s);
    assert |multiset(r)| == |multiset(s)|;
    forall i | 0 <= i < |r| ensures r[i] in s {
      assert r[i] in multiset(s);
    }
  }

  lemma SimulatedDataIsSimulated(draws: seq<Draw>, n: nat)
    requires n <= |draws|
    requires forall d <- draws :: ValidDraw(d)
    ensures forall e <- SimulatedData(draws, n) :: IsSimulated(e)
  {
    var r := SimulatedData(draws, n);
    forall e <- r ensures IsSimulated(e) {
      var i :| 0 <= i < n && r[i] == e;
    }
  }

  /** `reset`: the cursor goes back to the first entry; the entries stay. */
  function Reset(r: LogReader): (r': LogReader)
    ensures r'.entries == r.entries && r'.cursor == 0
  {
    LogReader(r.entries, 0)
  }

  /** `hasNext`: some entry has not been handed out yet, so `next` would yield one. */
  function HasNext(r: LogReader): (b: bool)
    ensures b <==> Next(r).Yield?
  {
    r.cursor < |r.entries|
  }

  /** What `next` does: hands out the entry under the cursor and moves past it,
      or throws `NoSuchElementException` when every entry has been handed out. */
  datatype Step = Yield(entry: LogEntry, reader: LogReader) | Exhausted

  function Next(r: LogReader): (s: Step)
    ensures s.Exhausted? <==> |r.entries| <= r.cursor
    ensures s.Yield? ==>
      s.entry == r.entries[r.cursor] && s.reader.entries == r.entries && s.reader.cursor == r.cursor + 1
  {
    if r.cursor < |r.entries| then Yield(r.entries[r.cursor], LogReader(r.entries, r.cursor + 1))
    else Exhausted
  }

  /** `remove`: refused; neither the entries nor the cursor change. */
  function Remove(r: LogReader): (r': LogReader)
    ensures r'.entries == r.entries && r'.cursor == r.cursor
  {
    r
  }

  /** `k` calls of `next`: the entries handed out and the reader afterwards. */
  function Advance(r: LogReader, k: nat): (res: (seq<LogEntry>, LogReader))
    ensures |res.0| <= k
    ensures res.1.entries == r.entries && res.1.cursor == r.cursor + |res.0|
    ensures |res.0| == 0 || r.cursor + |res.0| <= |r.entries|
    ensures forall i :: 0 <= i < |res.0| ==> res.0[i] == r.entries[r.cursor + i]
    ensures |res.0| < k ==> !HasNext(res.1)
    decreases k
  {
    if k == 0 then ([], r)
    else match Next(r)
      case Exhausted => ([], r)
      case Yield(e, r1) =>
        var (es, r2) := Advance(r1, k - 1);
        ([e] + es, r2)
  }

  /** After `reset`, `k` calls of `next` hand out the first `k` entries in their
      stored order, and `hasNext` is false exactly when every entry has been handed out. */
  lemma {:induction false} AdvanceFromReset(r: LogReader, k: nat)
    requires k <= |r.entries|
    ensures Advance(Reset(r), k) == (r.entries[..k], LogReader(r.entries, k))
    ensures HasNext(Advance(Reset(r), k).1) <==> k < |r.entries|
  {
    AdvanceFrom(Reset(r), k);
  }

  lemma {:induction false} AdvanceFrom(r: LogReader, k: nat)
    requires r.cursor + k <= |r.entries|
    ensures Advance(r, k) == (r.entries[r.cursor..r.cursor + k], LogReader(r.entries, r.cursor + k))
    decreases k
  {
    if k > 0 {
      var r1 := LogReader(r.entries, r.cursor + 1);
      assert Next(r) == Yield(r.entries[r.cursor], r1);
      AdvanceFrom(r1, k - 1);
      var p := Advance(r1, k - 1);
      assert Advance(r, k) == ([r.entries[r.cursor]] + p.0, p.1);
      assert r.entries[r.cursor..r.cursor + k] == [r.entries[r.cursor]] + r.entries[r.cursor + 1..r.cursor + k] by {
        assert r.entries[r.cursor..r.cursor + k][1..] == r.entries[r.cursor + 1..r.cursor + k];
      }
    } else {
      assert Advance(r, 0) == ([], r);
      assert r.entries[r.cursor..r.cursor] == [];
    }
  }

  /** A refused `remove` between two steps of a traversal changes nothing that follows. */
  lemma RemoveKeepsTraversal(r: LogReader, k: nat)
    ensures Advance(Remove(r), k) == Advance(r, k)
    ensures HasNext(Remove(r)) == HasNext(r)
  {
  }
}

=== FILE: stats.dfy ===
/**
  Counting and extremum scans shared by the analyser's queries: occurrence
  counts, per-value histograms, sums, and the first-occurrence argmax/argmin
  scans with a strict comparison.
 */
module Stats {

  // ---------------------------------------------------------------------
  // Occurrences and histograms
  // ---------------------------------------------------------------------

  /** How many elements of `xs` equal `v`. */
  function Occurrences(xs: seq<int>, v: int): nat {
    if |xs| == 0 then 0
    else Occurrences(xs[..|xs| - 1], v) + (if xs[|xs| - 1] == v then 1 else 0)
  }

  /** The histogram of `xs` over `lo .. lo + n - 1`: slot `i` counts the elements equal to `lo + i`. */
  function Counts(xs: seq<int>, lo: int, n: nat): seq<nat> {
    seq<nat>(n, i => Occurrences(xs, lo + i))
  }

  /** Counting one more element. */
  lemma OccurrencesOfPrefix(xs: seq<int>, i: nat, v: int)
    requires i < |xs|
    ensures Occurrences(xs[..i + 1], v) == Occurrences(xs[..i], v) + (if xs[i] == v then 1 else 0)
  {
    assert xs[..i + 1][..i] == xs[..i];
  }

  /** Counting from the front instead of the back. */
  lemma {:induction false} OccurrencesCons(x: int, xs: seq<int>, v: int)
    ensures Occurrences([x] + xs, v) == (if x == v then 1 else 0) + Occurrences(xs, v)
    decreases |xs|
  {
    if |xs| > 0 {
      var s := [x] + xs;
      assert s[..|s| - 1] == [x] + xs[..|xs| - 1];
      OccurrencesCons(x, xs[..|xs| - 1], v);
    }
  }

  /** A value is counted at least once exactly when it occurs. */
  lemma {:induction false} OccurrencesPositive(xs: seq<int>, v: int)
    ensures Occurrences(xs, v) > 0 <==> exists k :: 0 <= k < |xs| && xs[k] == v
  {
    if |xs| > 0 {
      var init := xs[..|xs| - 1];
      OccurrencesPositive(init, v);
      if exists k :: 0 <= k < |xs| && xs[k] == v {
        var k :| 0 <= k < |xs| && xs[k] == v;
        if k < |xs| - 1 {
          assert init[k] == v;
        }
      }
      if exists k :: 0 <= k < |init| && init[k] == v {
        var k :| 0 <= k < |init| && init[k] == v;
        assert xs[k] == v;
      }
    }
  }

  /** The histogram over `lo .. lo + n - 1` is all zero exactly when no element lies in that range. */
  lemma CountsAllZero(xs: seq<int>, lo: int, n: nat)
    ensures (forall i :: 0 <= i < n ==> Counts(xs, lo, n)[i] == 0)
      <==> (forall k :: 0 <= k < |xs| ==> !(lo <= xs[k] < lo + n))
  {
    var c := Counts(xs, lo, n);
    if exists k :: 0 <= k < |xs| && lo <= xs[k] < lo + n {
      var k :| 0 <= k < |xs| && lo <= xs[k] < lo + n;
      OccurrencesPositive(xs, xs[k]);
      assert c[xs[k] - lo] > 0;
    }
    if exists i :: 0 <= i < n && c[i] != 0 {
      var i :| 0 <= i < n && c[i] != 0;
      OccurrencesPositive(xs, lo + i);
    }
  }

  /** Every element lies in `lo .. hi - 1`. */
  predicate AllWithin(xs: seq<int>, lo: int, hi: int) {
    forall k :: 0 <= k < |xs| ==> lo <= xs[k] < hi
  }

  /** The position of the first element outside `lo .. hi - 1`, or `|xs|` when there is none. */
  function FirstOutside(xs: seq<int>, lo: int, hi: int): (p: nat)
    ensures p <= |xs|
    ensures AllWithin(xs[..p], lo, hi)
    ensures p < |xs| ==> !(lo <= xs[p] < hi)
  {
    if |xs| == 0 || !(lo <= xs[0] < hi) then 0
    else
      var p := 1 + FirstOutside(xs[1..], lo, hi);
      assert forall k :: 0 < k < p ==> xs[..p][k] == xs[1..][..p - 1][k - 1];
      p
  }

  // ---------------------------------------------------------------------
  // Sums
  // ---------------------------------------------------------------------

  /** The sum of the elements. */
  function Sum(s: seq<int>): int {
    if |s| == 0 then 0 else Sum(s[..|s| - 1]) + s[|s| - 1]
  }

  /** Adding one to a single slot adds one to the sum. */
  lemma {:induction false} SumIncrement(s: seq<int>, j: nat)
    requires j < |s|
    ensures Sum(s[j := s[j] + 1]) == Sum(s) + 1
  {
    var t := s[j := s[j] + 1];
    var n := |s|;
    if j == n - 1 {
      assert t[..n - 1] == s[..n - 1];
    } else {
      assert t[..n - 1] == s[..n - 1][j := s[j] + 1];
      SumIncrement(s[..n - 1], j);
    }
  }

  /** A histogram whose range holds every element accounts for all of them. */
  lemma {:induction false} SumOfCounts(xs: seq<int>, lo: int, n: nat)
    requires AllWithin(xs, lo, lo + n)
    ensures Sum(Counts(xs, lo, n)) == |xs|
    decreases |xs|
  {
    if |xs| == 0 {
      forall i | 0 <= i < n
        ensures Counts(xs, lo, n)[i] == 0
      {
        assert Counts(xs, lo, n)[i] == Occurrences(xs, lo + i);
      }
      SumOfZeros(Counts(xs, lo, n));
    } else {
      var init := xs[..|xs| - 1];
      var x := xs[|xs| - 1];
      assert AllWithin(init, lo, lo + n) by {
        forall k | 0 <= k < |init| ensures lo <= init[k] < lo + n {
          assert init[k] == xs[k];
        }
      }
      SumOfCounts(init, lo, n);
      var before := Counts(init, lo, n);
      forall i | 0 <= i < n
        ensures Counts(xs, lo, n)[i] == before[x - lo := before[x - lo] + 1][i]
      {
        assert Occurrences(xs, lo + i) == Occurrences(init, lo + i) + (if x == lo + i then 1 else 0);
      }
      assert Counts(xs, lo, n) == before[x - lo := before[x - lo] + 1];
      SumIncrement(before, x - lo);
    }
  }

  lemma {:induction false} SumOfZeros(s: seq<int>)
    requires forall i :: 0 <= i < |s| ==> s[i] == 0
    ensures Sum(s) == 0
  {
    if |s| > 0 {
      SumOfZeros(s[..|s| - 1]);
    }
  }

  // ---------------------------------------------------------------------
  // First-occurrence extrema
  // ---------------------------------------------------------------------

  /** `i` is the lowest index holding the maximum of `s`. */
  predicate IsFirstMax(s: seq<int>, i: int) {
    && 0 <= i < |s|
    && (forall j :: 0 <= j < |s| ==> s[j] <= s[i])
    && (forall j :: 0 <= j < i ==> s[j] < s[i])
  }

  /** `i` is the lowest index holding the minimum of `s`. */
  predicate IsFirstMin(s: seq<int>, i: int) {
    && 0 <= i < |s|
    && (forall j :: 0 <= j < |s| ==> s[i] <= s[j])
    && (forall j :: 0 <= j < i ==> s[i] < s[j])
  }

  /** The first-occurrence extrema are unique, so the predicates above pin a scan's result down. */
  lemma FirstExtremaAreUnique(s: seq<int>, i: int, j: int)
    ensures IsFirstMax(s, i) && IsFirstMax(s, j) ==> i == j
    ensures IsFirstMin(s, i) && IsFirstMin(s, j) ==> i == j
  {
    if IsFirstMax(s, i) && IsFirstMax(s, j) {
      assert s[j] <= s[i] && s[i] <= s[j];
    }
    if IsFirstMin(s, i) && IsFirstMin(s, j) {
      assert s[j] <= s[i] && s[i] <= s[j];
    }
  }

  /** The scan of the busiest-* queries over `s[from..]`: starting from
      `seedIndex` and `seedValue`, an element replaces the best so far only when
      it is strictly greater. The result is the first maximum when some element
      beats the seed, and the seed otherwise. */
  method ScanMax(s: seq<int>, from: nat, seedIndex: int, seedValue: int) returns (index: int, best: int)
    requires from <= |s|
    ensures best >= seedValue && forall k :: from <= k < |s| ==> s[k] <= best
    ensures best == seedValue ==> index == seedIndex
    ensures best > seedValue ==>
      from <= index < |s| && s[index] == best && forall k :: from <= k < index ==> s[k] < best
  {
    index, best := seedIndex, seedValue;
    var i := from;
    while i < |s|
      invariant from <= i <= |s|
      invariant best >= seedValue && forall k :: from <= k < i ==> s[k] <= best
      invariant best == seedValue ==> index == seedIndex
      invariant best > seedValue ==>
        from <= index < i && s[index] == best && forall k :: from <= k < index ==> s[k] < best
    {
      if s[i] > best {
        index, best := i, s[i];
      }
      i := i + 1;
    }
  }

  /** The scan of the quietest-* queries: as `ScanMax`, with strictly smaller values winning. */
  method ScanMin(s: seq<int>, from: nat, seedIndex: int, seedValue: int) returns (index: int, best: int)
    requires from <= |s|
    ensures best <= seedValue && forall k :: from <= k < |s| ==> best <= s[k]
    ensures best == seedValue ==> index == seedIndex
    ensures best < seedValue ==>
      from <= index < |s| && s[index] == best && forall k :: from <= k < index ==> best < s[k]
  {
    index, best := seedIndex, seedValue;
    var i := from;
    while i < |s|
      invariant from <= i <= |s|
      invariant best <= seedValue && forall k :: from <= k < i ==> best <= s[k]
      invariant best == seedValue ==> index == seedIndex
      invariant best < seedValue ==>
        from <= index < i && s[index] == best && forall k :: from <= k < index ==> best < s[k]
    {
      if s[i] < best {
        index, best := i, s[i];
      }
      i := i + 1;
    }
  }

  /** The counting loop of the day queries: one pass over `xs`, adding one to
      slot `x - lo` for each `x` in `lo .. lo + n - 1` and skipping the others. */
  method CountWithin(xs: seq<int>, lo: int, n: nat) returns (counts: seq<nat>)
    ensures counts == Counts(xs, lo, n)
  {
    counts := seq(n, _ => 0);
    var i := 0;
    while i < |xs|
      invariant 0 <= i <= |xs|
      invariant |counts| == n
      invariant forall v :: 0 <= v < n ==> counts[v] == Occurrences(xs[..i], lo + v)
    {
      forall v | lo <= v < lo + n {
        OccurrencesOfPrefix(xs, i, v);
      }
      var x := xs[i];
      if lo <= x < lo + n {
        counts := counts[x - lo := counts[x - lo] + 1];
      }
      i := i + 1;
    }
    assert xs[..i] == xs;
  }
}

=== FILE: tokenizer.dfy ===
/**
  The log-line tokenizer: a `java.util.Scanner` over one line, read with
  `nextInt` once per slot of the destination array.

  A line is split into tokens at runs of Java whitespace; a token is read as
  an `int` when it is an optionally signed run of ASCII digits whose value
  fits in 32 bits. Reading past the last token is `NoSuchElementException`;
  a token that is not an `int` is `InputMismatchException` (a subclass, and
  rethrown the same way).
 */
module Tokenizer {
  import opened Wrappers

  // ---------------------------------------------------------------------
  // Splitting a line into tokens
  // ---------------------------------------------------------------------

  /** `Character.isWhitespace`, the class Scanner's default delimiter is made of. */
  predicate IsWhitespace(c: char) {
    || c == ' '
    || ('\t' <= c <= '\r')
    || ('\U{001C}' <= c <= '\U{001F}')
    || c == '\U{1680}'
    || ('\U{2000}' <= c <= '\U{2006}')
    || ('\U{2008}' <= c <= '\U{200A}')
    || c == '\U{2028}' || c == '\U{2029}' || c == '\U{205F}' || c == '\U{3000}'
  }

  /** A token: a non-empty run of non-whitespace characters. */
  predicate IsToken(t: string) {
    |t| > 0 && forall i :: 0 <= i < |t| ==> !IsWhitespace(t[i])
  }

  /** Length of the run of non-whitespace characters that starts `s`. */
  function TokenLength(s: string): (n: nat)
    ensures n <= |s|
    ensures forall i :: 0 <= i < n ==> !IsWhitespace(s[i])
    ensures n < |s| ==> IsWhitespace(s[n])
  {
    if |s| == 0 || IsWhitespace(s[0]) then 0 else 1 + TokenLength(s[1..])
  }

  /** The tokens of `s` in order: what successive `Scanner.next` calls see. */
  function Tokens(s: string): (ts: seq<string>)
    ensures forall i :: 0 <= i < |ts| ==> IsToken(ts[i])
    decreases |s|
  {
    if |s| == 0 then []
    else if IsWhitespace(s[0]) then Tokens(s[1..])
    else
      var n := TokenLength(s);
      [s[..n]] + Tokens(s[n..])
  }

  /** Tokens written out with exactly one space between neighbours. */
  function JoinSpaces(ts: seq<string>): string {
    if |ts| == 0 then ""
    else if |ts| == 1 then ts[0]
    else ts[0] + " " + JoinSpaces(ts[1..])
  }

  predicate AllWhitespace(w: string) {
    forall i :: 0 <= i < |w| ==> IsWhitespace(w[i])
  }

  /** Tokens `ts` laid out with the whitespace runs `ws` around and between
      them: `ws[0] + ts[0] + ws[1] + ... + ts[n - 1] + ws[n]`. */
  function Interleave(ws: seq<string>, ts: seq<string>): string
    requires |ws| == |ts| + 1
  {
    if |ts| == 0 then ws[0] else ws[0] + ts[0] + Interleave(ws[1..], ts[1..])
  }

  /** `ws` can separate `ts`: every run is whitespace, and the inner ones are
      non-empty, so neighbouring tokens do not run together. */
  predicate Separates(ws: seq<string>, ts: seq<string>) {
    && |ws| == |ts| + 1
    && (forall i :: 0 <= i < |ws| ==> AllWhitespace(ws[i]))
    && (forall i :: 0 < i < |ts| ==> |ws[i]| > 0)
  }

  /** Any line is split into exactly its tokens, whatever whitespace leads,
      trails or separates them. */
  lemma {:induction false} TokensOfInterleave(ws: seq<string>, ts: seq<string>)
    requires Separates(ws, ts)
    requires forall i :: 0 <= i < |ts| ==> IsToken(ts[i])
    ensures Tokens(Interleave(ws, ts)) == ts
    decreases |ts|
  {
    if |ts| == 0 {
      TokensOfWhitespaceThen(ws[0], "");
      assert ws[0] + "" == ws[0];
    } else {
      var rest := Interleave(ws[1..], ts[1..]);
      assert |ts| == 1 ==> rest == ws[1];
      assert |ts| > 1 ==> rest == ws[1] + ts[1] + Interleave(ws[2..], ts[2..]) && |ws[1]| > 0;
      assert |rest| == 0 || IsWhitespace(rest[0]);
      assert ws[0] + ts[0] + rest == ws[0] + (ts[0] + rest);
      TokensOfWhitespaceThen(ws[0], ts[0] + rest);
      TokensOfTokenThen(ts[0], rest);
      TokensOfInterleave(ws[1..], ts[1..]);
    }
  }

  /** The whitespace runs of `s` around and between its tokens. */
  function Gaps(s: string): (ws: seq<string>)
    ensures |ws| == |Tokens(s)| + 1
    ensures |s| > 0 && IsWhitespace(s[0]) ==> |ws[0]| > 0
    decreases |s|
  {
    if |s| == 0 then [""]
    else if IsWhitespace(s[0]) then
      var g := Gaps(s[1..]);
      [[s[0]] + g[0]] + g[1..]
    else
      [""] + Gaps(s[TokenLength(s)..])
  }

  /** The converse of `TokensOfInterleave`: every line is its tokens laid out
      with whitespace runs that separate them, so that lemma pins down `Tokens`
      on every line. */
  lemma {:induction false} LineIsInterleave(s: string)
    ensures Separates(Gaps(s), Tokens(s))
    ensures Interleave(Gaps(s), Tokens(s)) == s
  {
    GapsSeparate(s);
    GapsInterleave(s);
  }

  lemma {:induction false} GapsSeparate(s: string)
    ensures Separates(Gaps(s), Tokens(s))
    decreases |s|
  {
    if |s| == 0 {
    } else if IsWhitespace(s[0]) {
      var g := Gaps(s[1..]);
      GapsSeparate(s[1..]);
      var ws := Gaps(s);
      assert ws == [[s[0]] + g[0]] + g[1..];
      forall i | 0 <= i < |ws| ensures AllWhitespace(ws[i]) {
        if i > 0 { assert ws[i] == g[i]; } else { assert AllWhitespace(g[0]); }
      }
      forall i | 0 < i < |Tokens(s)| ensures |ws[i]| > 0 {
        assert ws[i] == g[i];
      }
    } else {
      var n := TokenLength(s);
      var g := Gaps(s[n..]);
      GapsSeparate(s[n..]);
      var ws := Gaps(s);
      assert ws == [""] + g;
      forall i | 0 <= i < |ws| ensures AllWhitespace(ws[i]) {
        if i > 0 { assert ws[i] == g[i - 1]; }
      }
    }
  }

  lemma {:induction false} GapsInterleave(s: string)
    ensures Interleave(Gaps(s), Tokens(s)) == s
    decreases |s|
  {
    if |s| == 0 {
    } else if IsWhitespace(s[0]) {
      var g := Gaps(s[1..]);
      GapsInterleave(s[1..]);
      assert Gaps(s) == [[s[0]] + g[0]] + g[1..] && Tokens(s) == Tokens(s[1..]);
      InterleavePrefix([s[0]], g, Tokens(s[1..]));
      assert s == [s[0]] + s[1..];
    } else {
      var n := TokenLength(s);
      var g, tr := Gaps(s[n..]), Tokens(s[n..]);
      GapsInterleave(s[n..]);
      var ws, ts := [""] + g, [s[..n]] + tr;
      assert Gaps(s) == ws && Tokens(s) == ts;
      assert ws[1..] == g && ts[1..] == tr;
      var head, rest := s[..n], Interleave(g, tr);
      assert Interleave(ws, ts) == "" + head + rest;
      assert "" + head == head;
      assert s == head + s[n..];
    }
  }

  /** Text put in front of the first gap comes out in front of the whole layout. */
  lemma InterleavePrefix(p: string, ws: seq<string>, ts: seq<string>)
    requires |ws| == |ts| + 1
    ensures Interleave([p + ws[0]] + ws[1..], ts) == p + Interleave(ws, ts)
  {
    var ws' := [p + ws[0]] + ws[1..];
    if |ts| > 0 {
      var tail := ws[1..];
      assert ws'[1..] == tail;
      var a, b, c := ws[0], ts[0], Interleave(tail, ts[1..]);
      assert Interleave(ws, ts) == a + b + c;
      assert Interleave(ws', ts) == (p + a) + b + c;
      ConcatAssociates(p, a, b, c);
    }
  }

  lemma ConcatAssociates(p: string, a: string, b: string, c: string)
    ensures (p + a) + b + c == p + (a + b + c)
  {
  }

  /** Whitespace in front of a line adds no token. */
  lemma {:induction false} TokensOfWhitespaceThen(w: string, rest: string)
    requires AllWhitespace(w)
    ensures Tokens(w + rest) == Tokens(rest)
    decreases |w|
  {
    if |w| > 0 {
      assert (w + rest)[1..] == w[1..] + rest;
      TokensOfWhitespaceThen(w[1..], rest);
    } else {
      assert w + rest == rest;
    }
  }

  /** A token followed by whitespace (or nothing) is read as exactly that token. */
  lemma {:induction false} TokensOfTokenThen(t: string, rest: string)
    requires IsToken(t)
    requires |rest| == 0 || IsWhitespace(rest[0])
    ensures Tokens(t + rest) == [t] + Tokens(rest)
  {
    var s := t + rest;
    TokenLengthOfTokenThen(t, rest);
    assert s[..|t|] == t;
    assert s[|t|..] == rest;
  }

  lemma {:induction false} TokenLengthOfTokenThen(t: string, rest: string)
    requires IsToken(t)
    requires |rest| == 0 || IsWhitespace(rest[0])
    ensures TokenLength(t + rest) == |t|
    decreases |t|
  {
    var s := t + rest;
    if |t| > 1 {
      assert s[1..] == t[1..] + rest;
      TokenLengthOfTokenThen(t[1..], rest);
    } else {
      assert s[1..] == rest;
    }
  }

  /** Splitting undoes joining: tokens separated by single spaces are read back unchanged. */
  lemma {:induction false} TokensOfJoinSpaces(ts: seq<string>)
    requires forall i :: 0 <= i < |ts| ==> IsToken(ts[i])
    ensures Tokens(JoinSpaces(ts)) == ts
  {
    if |ts| == 0 {
    } else if |ts| == 1 {
      TokensOfTokenThen(ts[0], "");
      assert ts[0] + "" == ts[0];
    } else {
      var rest := JoinSpaces(ts[1..]);
      assert ts[0] + " " + rest == ts[0] + (" " + rest);
      TokensOfTokenThen(ts[0], " " + rest);
      assert (" " + rest)[1..] == rest;
      TokensOfJoinSpaces(ts[1..]);
    }
  }

  // ---------------------------------------------------------------------
  // Decimal integers
  // ---------------------------------------------------------------------

  predicate IsDigit(c: char) {
    '0' <= c <= '9'
  }

  predicate AllDigits(s: string) {
    forall i :: 0 <= i < |s| ==> IsDigit(s[i])
  }

  function DigitChar(d: nat): char
    requires d < 10
  {
    ('0' as int + d) as char
  }

  function DigitValue(c: char): nat
    requires IsDigit(c)
  {
    c as int - '0' as int
  }

  /** The value of a run of decimal digits, most significant first. */
  function DigitsValue(s: string): nat
    requires AllDigits(s)
  {
    if |s| == 0 then 0 else DigitsValue(s[..|s| - 1]) * 10 + DigitValue(s[|s| - 1])
  }

  /** The decimal digits of `n`, without leading zeros. */
  function NatToDecimal(n: nat): (s: string)
    ensures |s| > 0 && AllDigits(s)
    ensures s[0] == '0' <==> n == 0
  {
    if n < 10 then [DigitChar(n)] else NatToDecimal(n / 10) + [DigitChar(n % 10)]
  }

  /** `Integer.toString`: decimal, with a leading `-` for negative values and
      no leading zero except in `0` itself. */
  function IntToDecimal(v: int): (s: string)
    ensures |s| > 0
    ensures s[0] == '-' <==> v < 0
    ensures v < 0 ==> |s| > 1 && AllDigits(s[1..]) && s[1] != '0'
    ensures v >= 0 ==> AllDigits(s) && (s[0] == '0' <==> v == 0)
  {
    if v < 0 then "-" + NatToDecimal(-v) else NatToDecimal(v)
  }

  /** The integer an optionally signed digit run denotes, if it is a 32-bit `int`:
      what `Scanner.nextInt` accepts as a token. */
  function ParseInt(t: string): (r: Option<int32>)
    ensures r.Some? ==> |t| > 0 && (t[0] == '-' || t[0] == '+' || IsDigit(t[0]))
    ensures r.Some? ==> IsDigit(t[|t| - 1]) && forall i :: 1 <= i < |t| ==> IsDigit(t[i])
    ensures r.Some? ==> (r.value < 0 ==> t[0] == '-')
  {
    if |t| == 0 then None
    else
      var negative := t[0] == '-';
      var digits := if t[0] == '-' || t[0] == '+' then t[1..] else t;
      if |digits| == 0 || !AllDigits(digits) then None
      else
        var n: int := DigitsValue(digits);
        var v := if negative then -n else n;
        if MinInt <= v <= MaxInt then Some(v) else None
  }

  /** The converse of the shape `ParseInt` requires: every optionally signed
      run of ASCII digits is read, leading zeros and all, as the value it
      denotes when that value is a 32-bit `int`, and is rejected otherwise. */
  lemma ParseIntOfSignedDigits(sign: string, d: string)
    requires sign == "" || sign == "+" || sign == "-"
    requires |d| > 0 && AllDigits(d)
    ensures var n: int := DigitsValue(d);
      var v := if sign == "-" then -n else n;
      ParseInt(sign + d) == if MinInt <= v <= MaxInt then Some(v) else None
  {
    var t := sign + d;
    if sign == "" {
      assert t == d && IsDigit(t[0]);
    } else {
      assert t[0] == sign[0] && t[1..] == d;
    }
  }

  lemma {:induction false} DigitsValueOfDecimal(n: nat)
    ensures DigitsValue(NatToDecimal(n)) == n
  {
    if n >= 10 {
      var s := NatToDecimal(n);
      assert s[..|s| - 1] == NatToDecimal(n / 10);
      DigitsValueOfDecimal(n / 10);
    }
  }

  /** Leading zeros do not change a digit run's value. */
  lemma {:induction false} DigitsValueLeadingZero(s: string)
    requires AllDigits(s)
    ensures AllDigits("0" + s) && DigitsValue("0" + s) == DigitsValue(s)
    decreases |s|
  {
    var z := "0" + s;
    if |s| > 0 {
      assert z[..|z| - 1] == "0" + s[..|s| - 1];
      DigitsValueLeadingZero(s[..|s| - 1]);
    }
  }

  /** Round trip of `Integer.toString` through `Scanner.nextInt`. */
  lemma ParseIntOfDecimal(v: int32)
    ensures ParseInt(IntToDecimal(v)) == Some(v)
  {
    var s := IntToDecimal(v);
    var m: int := v;
    if m < 0 {
      var d := NatToDecimal(-m);
      assert s == "-" + d;
      assert s[0] == '-' && s[1..] == d;
      DigitsValueOfDecimal(-m);
    } else {
      var d := NatToDecimal(v);
      assert s == d && IsDigit(d[0]);
      DigitsValueOfDecimal(v);
    }
  }

  /** A `0` written before a non-negative value's decimal digits is read back as the same value. */
  lemma ParseIntOfZeroPrefixed(v: int32)
    requires v >= 0
    ensures ParseInt("0" + IntToDecimal(v)) == Some(v)
  {
    DigitsValueOfDecimal(v);
    DigitsValueLeadingZero(NatToDecimal(v));
  }

  /** A `0` written before a negative value's `-` makes a token that is not an integer. */
  lemma ParseIntOfZeroPrefixedNegative(v: int32)
    requires v < 0
    ensures ParseInt("0" + IntToDecimal(v)) == None
  {
    var t := "0" + IntToDecimal(v);
    assert t[1] == '-';
  }

  // ---------------------------------------------------------------------
  // LoglineTokenizer.tokenize
  // ---------------------------------------------------------------------

  /** Why `Scanner.nextInt` failed. */
  datatype ScanError =
    | NoSuchElement   // the line had no further token
    | InputMismatch   // the next token is not a 32-bit integer

  /** `tokenize` stopped at slot `at` with `kind`. */
  datatype ScanFault = ScanFault(at: nat, kind: ScanError)

  /** The destination array after `tokenize`, and the exception it threw, if any. */
  datatype Tokenized = Tokenized(data: seq<int32>, fault: Option<ScanFault>)

  /** Token `k` exists and is an integer. */
  predicate ParsesAt(tokens: seq<string>, k: nat) {
    k < |tokens| && ParseInt(tokens[k]).Some?
  }

  /** Tokens `from` up to `to` all exist and are integers. */
  predicate AllParse(tokens: seq<string>, from: nat, to: nat) {
    forall k :: from <= k < to ==> ParsesAt(tokens, k)
  }

  /** The loop of `tokenize` from slot `i` on: slot `k` receives the `k`-th token. */
  function Fill(tokens: seq<string>, data: seq<int32>, i: nat): (r: Tokenized)
    requires i <= |data|
    ensures |r.data| == |data|
    ensures forall k :: 0 <= k < i ==> r.data[k] == data[k]
    ensures r.fault.None? <==> AllParse(tokens, i, |data|)
    ensures r.fault.None? ==>
      forall k :: i <= k < |data| ==> ParsesAt(tokens, k) && r.data[k] == ParseInt(tokens[k]).value
    ensures r.fault.Some? ==>
      var f := r.fault.value;
      && i <= f.at < |data|
      && !ParsesAt(tokens, f.at)
      && (f.kind == NoSuchElement <==> f.at >= |tokens|)
      && (forall k :: i <= k < f.at ==> ParsesAt(tokens, k) && r.data[k] == ParseInt(tokens[k]).value)
      && (forall k :: f.at <= k < |data| ==> r.data[k] == data[k])
    decreases |data| - i
  {
    if i == |data| then Tokenized(data, None)
    else if i >= |tokens| then
      assert !ParsesAt(tokens, i);
      Tokenized(data, Some(ScanFault(i, NoSuchElement)))
    else match ParseInt(tokens[i])
      case None =>
        assert !ParsesAt(tokens, i);
        Tokenized(data, Some(ScanFault(i, InputMismatch)))
      case Some(v) => Fill(tokens, data[i := v], i + 1)
  }

  /** `LoglineTokenizer.tokenize(logline, dataLine)`: fills every slot of `dataLine`
      from the line's tokens in order, or reports the first slot it could not fill,
      leaving the earlier slots overwritten and the later ones untouched. */
  function Tokenize(line: string, dataLine: seq<int32>): (r: Tokenized)
    ensures |r.data| == |dataLine|
    ensures r.fault.None? <==> AllParse(Tokens(line), 0, |dataLine|)
    ensures r.fault.None? ==>
      forall k :: 0 <= k < |dataLine| ==> ParsesAt(Tokens(line), k) && r.data[k] == ParseInt(Tokens(line)[k]).value
    ensures r.fault.Some? ==>
      var f := r.fault.value;
      && f.at < |dataLine|
      && (f.kind == NoSuchElement <==> f.at >= |Tokens(line)|)
      && !ParsesAt(Tokens(line), f.at)
      && (forall k :: 0 <= k < f.at ==> ParsesAt(Tokens(line), k) && r.data[k] == ParseInt(Tokens(line)[k]).value)
      && (forall k :: f.at <= k < |dataLine| ==> r.data[k] == dataLine[k])
  {
    Fill(Tokens(line), dataLine, 0)
  }

  /** The first `n` tokens, or all of them when there are fewer. */
  function Leading(ts: seq<string>, n: nat): (r: seq<string>)
    ensures |r| <= n && |r| <= |ts| && r == ts[..|r|]
    ensures |r| < n ==> |r| == |ts|
  {
    if n < |ts| then ts[..n] else ts
  }

  /** Only the first `|dataLine|` tokens are ever looked at: two lines whose
      leading tokens agree, whatever whitespace separates them and whatever
      follows, are tokenized alike. */
  lemma TokenizeIgnoresExtraTokens(line1: string, line2: string, dataLine: seq<int32>)
    requires Leading(Tokens(line1), |dataLine|) == Leading(Tokens(line2), |dataLine|)
    ensures Tokenize(line1, dataLine) == Tokenize(line2, dataLine)
  {
    FillDependsOnLeading(Tokens(line1), Tokens(line2), dataLine, 0);
  }

  /** `a` and `b` have the same tokens at every position below `n`, and run out at the same one. */
  predicate AgreeBelow(a: seq<string>, b: seq<string>, n: nat) {
    forall k :: 0 <= k < n ==> (k < |a| <==> k < |b|) && (k < |a| ==> a[k] == b[k])
  }

  lemma {:induction false} FillDependsOnLeading(a: seq<string>, b: seq<string>, data: seq<int32>, i: nat)
    requires i <= |data|
    requires AgreeBelow(a, b, |data|)
    ensures Fill(a, data, i) == Fill(b, data, i)
    decreases |data| - i
  {
    if i < |data| && i < |a| {
      assert i < |b| && a[i] == b[i];
      match ParseInt(a[i])
      case None =>
      case Some(v) =>
        FillDependsOnLeading(a, b, data[i := v], i + 1);
    }
  }
}

=== FILE: wrappers.dfy ===
/** Failure-carrying values used in place of Java's exceptions, and Java's 32-bit `int`. */
module Wrappers {

  /** A value that may be absent. */
  datatype Option<+T> = None | Some(value: T)

  /** Either a successful value or the error that stopped the computation. */
  datatype Result<+R, +E> = Success(value: R) | Failure(error: E)

  /** Bounds of Java's `int`; `MaxInt` is `Integer.MAX_VALUE`. */
  const MinInt: int := -0x8000_0000
  const MaxInt: int := 0x7FFF_FFFF

  /** The values a Java `int` can hold. */
  type int32 = x: int | MinInt <= x <= MaxInt

  /** The number of distinct `int` values; `int` arithmetic is exact modulo this. */
  const IntModulus: int := 0x1_0000_0000

  /** `x - 1` computed in Java's `int`: congruent to the exact difference modulo
      2^32, so `Integer.MIN_VALUE - 1` wraps around to `Integer.MAX_VALUE`. */
  function Decrement(x: int32): (r: int32)
    ensures (r - (x - 1)) % IntModulus == 0
    ensures x > MinInt ==> r == x - 1
  {
    if x == MinInt then MaxInt else x - 1
  }
}
